=== FILE: README.md ===
# im-tui core, modelled in Dafny

A model of the logic of `im`, a terminal client for reading and sending
iMessages: the phone-number normaliser, the contact directory, the contact
resolution and `remove` command of the entry point, and the three terminal
views (chat, contacts list, first-run setup) together with the older
single-file chat client. The SQLite message store, the AppleScript sender
and the terminal itself are outside the model; what they hand back (a
fetch, a delivery verdict, a key press, a terminal failure) arrives as an
input value.

Files, one module each:

- `wrappers.dfy` — `Option` and `Result`.
- `errors.dfy` — the application's error enum, its display texts, and how
  `run_terminal` wraps a view's failure.
- `formatter.dfy` — `format_phone_number` and `format_display_number` as
  functions, with each branch, idempotence and the unit-test cases as lemmas.
- `config.dfy` — the directory as a class over `map<string, ContactEntry>`,
  whose setters update it in place. Case-insensitive lookup and listing are
  methods that may pick any matching key, and list in any order, because a
  `HashMap`'s iteration order is unspecified.
- `dispatch.dfy` — `get_contact_info`, the `remove` command and the fallback
  after the setup view.
- `keys.dfy` — key events, the outcome of one poll, and how a view's loop ends.
- `setup.dfy`, `contacts.dfy`, `chat.dfy` — the three views as classes with a
  `HandleKey` method for one key and a `RunUi` loop over a finite stream of polls.
- `legacy_tui.dfy` — the older `App` from `src/tui.rs`.

Behaviour of the code worth knowing:

- The contacts list quits on Esc and Ctrl+C only. A `q` key does nothing.
- Terminal restoration is not unconditional, because the restore calls use `?`.
  A restore failure replaces the result (`Errors.RunTerminal`, `LegacyTui.RunTui`).
- The setup view starts from an empty configuration (src/tui/setup.rs:32), and
  `main` saves what it returns (src/main.rs:66, src/main.rs:224). So when setup
  runs because no default is set, any named contacts already in the directory
  are lost (`Setup.TypeContactAndCommit` states that the result has none).
- `scroll <= MaxScroll(|messages|, height)` (`Chat.ChatView.ScrollFits`) holds
  only at a fixed terminal height, and only while no reset is pending. After a resize the position is not
  clamped until the next reset. After a reload that returns no messages, the
  reset is skipped and the position may exceed the transcript. Rendering is
  still safe then, because the visible range is empty.

## Model

| member | source | states |
|---|---|---|
| `Formatter.PhoneDigitsGetCountryCode` | src/formatter.rs:4-5 | a digits-only string, the empty one included, becomes "+1" followed by it |
| `Formatter.PhonePlusUnchanged` | src/formatter.rs:4-17 | a string containing '+' is returned unchanged |
| `Formatter.PhoneInnerBranchUnreachable` | src/formatter.rs:8-10 | after the first branch has failed, the rest after a leading '1' is never all digits, so the `"+1" + rest` branch is dead |
| `Formatter.PhoneLeadingOneGetsPlus` | src/formatter.rs:6-13 | no '+', a leading '1', length > 1 and not all digits gives "+" followed by the string |
| `Formatter.PhoneOtherUnchanged` | src/formatter.rs:14-17 | every other input is returned unchanged |
| `Formatter.PhoneCases` | src/formatter.rs:2-18 | the result is one of: "+1"+s for digits, "+"+s for a leading '1', or s itself |
| `Formatter.PhoneRewriteAddsPlus` | src/formatter.rs:4-13 | whenever normalisation changes its input, the result contains '+' |
| `Formatter.PhoneIdempotent` | src/formatter.rs:2-18 | normalising twice equals normalising once |
| `Formatter.DisplayDropsCountryCode` | src/formatter.rs:22-23 | "+1" followed by at least one character loses the "+1" |
| `Formatter.DisplayDropsLeadingOne` | src/formatter.rs:24-25 | a leading '1' in front of digits only is dropped, so "1" becomes "" |
| `Formatter.DisplayOtherUnchanged` | src/formatter.rs:26-28 | any other input is shown unchanged |
| `Formatter.DisplayIsSuffix` | src/formatter.rs:21-29 | the display form is a suffix of the input and never longer |
| `Formatter.DisplayUndoesCountryCode` | src/formatter.rs:1-29 | displaying a normalised non-empty digit string gives back the digits |
| `Formatter.DisplayKeepsBareCountryCode` | src/formatter.rs:2-28 | the empty string normalises to "+1", and display keeps "+1" |
| `Formatter.PhoneNumberTestCases` | src/formatter.rs:36-51 | the three asserted cases of `test_format_phone_number` |
| `Formatter.PhoneLeadingOneDoubled` | src/formatter.rs:43-44 | the commented-out case: "15551234567" becomes "+115551234567", not "+15551234567" |
| `Formatter.DisplayNumberTestCases` | src/formatter.rs:54-69 | the four asserted cases of `test_format_display_number` |
| `Errors.RunTerminal` | src/tui/common.rs:14-52 | a setup or restore failure is an I/O error; otherwise a body failure becomes Generic("TUI error: …") and a success passes through |
| `Configuration.Config.constructor` | src/config.rs:28-35 | the default configuration has no default contact, no display name and zero contacts |
| `Configuration.Config.Clone` | src/config.rs:8-17 | a fresh configuration with the same three values |
| `Configuration.Config.SetDefaultContact` | src/config.rs:73-80 | afterwards the getter returns Some(contact); the display name and the contacts are unchanged |
| `Configuration.Config.SetDefaultDisplayName` | src/config.rs:83-90 | afterwards the getter returns Some(name); the default contact and the contacts are unchanged |
| `Configuration.Config.AddContact` | src/config.rs:93-101 | the name maps to the new entry, overwriting any old one; other keys are unchanged; the count grows by one exactly when the name was new |
| `Configuration.Config.RemoveContact` | src/config.rs:104-106 | returns true iff the name was a key; afterwards it is gone, everything else is unchanged, and the count drops by one when removed |
| `Configuration.Config.GetContactCaseInsensitive` | src/config.rs:114-119 | returns some (key, entry) that is in the map and matches case-insensitively; returns None iff no key matches; which match is returned is unspecified |
| `Configuration.Config.ListContacts` | src/config.rs:122-129 | exactly the map's entries, one per key, in an unspecified order; the length is the contact count |
| `Configuration.Config.GetContact` | src/config.rs:108-111 | exact, case-sensitive lookup: Some exactly when the name is a key, holding that key's entry |
| `Configuration.ExactFallbackNeverHits` | src/main.rs:289-291 | when no key matches case-insensitively, the exact lookup `GetContact` returns None, so the fallback never hits |
| `Dispatch.ResolveDefault` | src/main.rs:311-324 | the default contact with the default display name, or else its display number; `NoContact` iff no default is set |
| `Dispatch.GetContactInfo` | src/main.rs:245-325 | the `--contact` flag wins and is normalised, without reading the config; a name resolves iff some key matches it case-insensitively, giving that entry's identifier and display name; an unknown name is the "not found" error and never falls back to the default; with neither, the default |
| `Dispatch.RemoveCommand` | src/main.rs:176-200 | removes exactly the one key that matched case-insensitively, reporting whether it differed from the name typed; with no match the directory is unchanged and "not found" is reported |
| `Dispatch.PostSetupTarget` | src/main.rs:218-236 | a setup failure propagates; otherwise the result equals resolving the returned config's default, which is `NoContact` when setup was cancelled |
| `Dispatch.ResolveMomScenario` | src/main.rs:269-288 | with {"mom": +15551234567 shown as "Mom"}, the name "MOM" resolves to ("+15551234567", "Mom") |
| `Dispatch.ResolveUniqueMatch` | src/main.rs:269-288 | when exactly one stored key matches a name case-insensitively, that name resolves to the key's identifier and display name, whatever the directory's iteration order |
| `Dispatch.ResolveAnyCaseScenario` | src/main.rs:269-288 | with the stored key "Mom", the names "mom", "MOM" and "Mom" all resolve to the same target ("+15551234567", "Mom") |
| `Setup.SetupView.constructor` | src/tui/setup.rs:27-34 | both buffers empty, the contact field active, a fresh default configuration |
| `Setup.SetupView.GetConfig` | src/tui/setup.rs:37-39 | a fresh copy of the current configuration |
| `Setup.SetupView.HandleKey` | src/tui/setup.rs:61-109 | Esc and Ctrl+C (matched before characters) return the configuration untouched; Tab flips the field; a character or Backspace edits the active buffer only; Enter with an empty contact buffer does nothing; otherwise Enter stores the normalised contact, and the display name only if one was typed, then returns |
| `Setup.SetupView.RunUi` | src/tui/setup.rs:47-113 | the named contacts are never changed; the defaults change only by a commit that returns at once; a returned configuration is either the original or has a normalised non-empty contact; the view returns only on an Esc, Ctrl+C or Enter with no Esc, Ctrl+C or fault before it; a failure, or polling on to the end, is exactly what `Keys.FirstExit` gives for Esc and Ctrl+C, so no quit key and no earlier fault is ever skipped |
| `Setup.CursorOnActiveFieldOnly` | src/tui/setup.rs:147-176 | the cursor glyph is appended to the active box's text only, and each box shows its own buffer |
| `Setup.ToggleTwice` | src/tui/setup.rs:68-74 | Tab always changes the active field, and two Tabs restore it |
| `Setup.TypeContactAndCommit` | src/tui/setup.rs:75-106 | typing a non-empty contact into a fresh view and pressing Enter returns a config whose default is that contact normalised, with no display name |
| `Setup.TypeTestNumber` | src/tui/setup.rs:93-106 | typing 5551234567 and pressing Enter stores +15551234567 |
| `Contacts.DefaultContactLabel` | src/tui/contacts.rs:93-100 | "None" without a default; the bare identifier without a display name; otherwise the display name, then " (", the identifier and ")" |
| `Contacts.RowLabelShape` | src/tui/contacts.rs:114-120 | a row is the name, then ": ", then the entry shown the same way as the default contact |
| `Contacts.ContactsView.constructor` | src/tui/contacts.rs:18-23 | the first row is selected and the invariant holds |
| `Contacts.ContactsView.HandleKey` | src/tui/contacts.rs:42-61 | quits iff Esc or Ctrl+C; Up decrements with floor 0; Down increments only below count − 1, so it does nothing on an empty list, and is one step of `DownN`; other keys change nothing; the selection stays ≤ max(0, count − 1); the config is never written |
| `Keys.FirstExitIsFirstStop` | src/tui/contacts.rs:35-64 | the reference ending of a view loop: still polling exactly when no quit key and no fault occurs; otherwise the first such poll decides, a fault failing with its text and a key returning |
| `Keys.TypingSendsNonEmpty` | src/tui/chat.rs:105-112 | the reference for a chat loop's input line never sends an empty line, and sends nothing when the first poll stops the loop |
| `Contacts.ContactsView.RunUi` | src/tui/contacts.rs:31-65 | the selection invariant holds across the whole loop and the config is never written; the loop ends exactly as `Keys.FirstExit` says for Esc and Ctrl+C: it returns at the first such key, fails at the first fault, whichever comes first, and otherwise is still polling |
| `Contacts.ContactsView.Rows` | src/tui/contacts.rs:110-121 | one row per contact, each one the label of some entry, every entry labelled; the highlighted index is a row whenever there are rows |
| `Contacts.LabelsCover` | src/tui/contacts.rs:110-121 | a listing holding exactly the directory's pairs yields the label of every contact and no other label |
| `Contacts.DownClamps` | src/tui/contacts.rs:54-59 | any number of Down presses stays within the last row and reaches it; with no contacts the selection stays 0 |
| `Chat.Reverse` | src/tui/chat.rs:42-43 | reversal preserves length |
| `Chat.ReverseAt` | src/tui/chat.rs:42-43 | position k of the reversal is position len − 1 − k of the fetch |
| `Chat.ReverseReverse` | src/tui/chat.rs:42-44 | reversing twice gives back the fetched order |
| `Chat.NewestIsLast` | src/tui/chat.rs:41-44 | after a load the store's newest message is last and its oldest is first |
| `Chat.ReverseMessages` | src/tui/chat.rs:43 | the in-place reversal leaves the array holding the reverse of its old contents |
| `Chat.MaxScroll` | src/tui/chat.rs:75-80 | at most the transcript length; together with the visible count it makes up the whole transcript; 0 iff everything fits; needs a height of at least 6 |
| `Chat.VisibleRange` | src/tui/chat.rs:158-168 | starts at the scroll position, never ends past the transcript, spans at most min(len, area height), and is non-negative when scroll ≤ len |
| `Chat.RenderedRows` | src/tui/chat.rs:156-198 | every drawn line is message scroll+i, with its text, else "[kind]", else "<empty message>", right-aligned when outgoing; no more lines than layout slots; the exact count |
| `Chat.ResetShowsNewest` | src/tui/chat.rs:75-80 | after a reset the transcript area is as full as possible and its last line is the newest message |
| `Chat.ChatView.constructor` | src/tui/chat.rs:26-36 | empty transcript and input, scroll 0, a reset pending |
| `Chat.ChatView.LoadMessages` | src/tui/chat.rs:39-47 | stores the reversed fetch and requests a reset; a failed fetch is returned and changes nothing |
| `Chat.ChatView.SendMessage` | src/tui/chat.rs:50-55 | the text goes to the sender; the transcript is reloaded only after a successful delivery; a delivery or reload failure is returned with the transcript unchanged |
| `Chat.ChatView.ResetScroll` | src/tui/chat.rs:74-80 | when a reset is pending and there are messages, the position becomes MaxScroll and the request is cleared; otherwise nothing changes |
| `Chat.ChatView.HandleKey` | src/tui/chat.rs:91-130 | quits iff Esc or Ctrl+C; a character is typed; Backspace pops; Enter with a non-empty line sends exactly that line and always clears it, and with an empty line does nothing; Up has floor 0; Down has ceiling MaxScroll; the invariant and the fixed-height bound are kept |
| `Chat.ChatView.RunUi` | src/tui/chat.rs:63-137 | a failed initial load ends the view with that error's text; after a successful load the loop ends exactly as `Keys.FirstExit` says for Esc and Ctrl+C over the ticks' polls (the first such key returns, the first fault fails, whichever comes first); nothing empty is ever sent; at a constant height, unless a reset is pending, scroll ≤ MaxScroll; the lines handed to the sender and the final input line are exactly `Keys.Typing` of the polls from the starting line: every Enter on a non-empty line before the first quit key or fault sends that line and clears it |
| `Chat.ChatView.Tick` | src/tui/chat.rs:73-130 | one iteration: the pending reset, then the poll; a fault fails, Esc or Ctrl+C returns, any other key is fed to the input line (`Keys.Feed`) and the send, if any, is appended to the sender's log; the scroll bound is kept |
| `LegacyTui.Title` | src/tui.rs:172-175 | "Chat with ", the display name verbatim, then " (Press 'Esc' to quit)" |
| `LegacyTui.App.constructor` | src/tui.rs:30-40 | empty transcript and input, scroll 0, a reset pending |
| `LegacyTui.App.LoadMessages` | src/tui.rs:42-50 | stores the reversed fetch and requests a reset; a failed fetch changes nothing |
| `LegacyTui.App.SendMessage` | src/tui.rs:52-57 | reloads only after a successful delivery |
| `LegacyTui.App.ResetScroll` | src/tui.rs:106-112 | the same reset as the chat view |
| `LegacyTui.App.HandleKey` | src/tui.rs:121-152 | only Esc quits; Ctrl+C has no arm and types 'c'; Backspace, Enter, Up and Down behave as in the chat view |
| `LegacyTui.App.RunApp` | src/tui.rs:101-159 | the loop ends exactly as `Keys.FirstExit` says for Esc alone: it returns at the first Esc, fails at the first fault, whichever comes first, and otherwise is still polling; nothing empty is sent; the fixed-height scroll bound is kept; the lines handed to the sender and the final input line are exactly `Keys.Typing` of the polls with Esc alone quitting, so Ctrl+C types a 'c' |
| `LegacyTui.App.Tick` | src/tui.rs:105-154 | one iteration: the pending reset, then the poll; a fault fails, Esc returns, any other key is fed to the input line (`Keys.Feed`) and the send, if any, is appended to the sender's log |
| `LegacyTui.App.Rows` | src/tui.rs:181-202 | the drawn lines never index past the transcript and fit the layout slots |
| `LegacyTui.RunTui` | src/tui.rs:60-99 | a failed initial load returns its error; once the loop has ended, its error is swallowed and the result is Ok; terminal setup and restore failures are I/O errors; after a good load the run is unfinished exactly when no Esc and no fault occurs among the ticks |

## Left out

- The message store (`src/db.rs`: SQLite, `$HOME`, timestamp conversion) is not modelled. Each fetch is an input `Result<seq<Message>, Error>`. The model requires a fetch to hold at most 50 messages, as the query's `LIMIT 50` guarantees. Timestamps are plain integers.
- The sender (`src/sender.rs`, which runs `osascript`) is not modelled. Each delivery is an input verdict. The ghost `outbox` records every text handed to the sender.
- Terminal plumbing (raw mode, alternate screen, mouse capture, `terminal.size()`, drawing) is not modelled. A failure of any of these is a `Poll.Fault`. Poll timeouts, mouse events and resize events are `Poll.Idle`. The 200 ms tick and the 50/100 ms poll budgets are not modelled.
- Layout, colours, borders and the "HH:MM" time prefix of each transcript line are left out, because the prefix depends on the local time zone. The transcript area's height is a parameter. Under the chat layout it is the terminal height minus 6.
- Chat.MaxScroll: `size.height - 6` is `u16` arithmetic that panics or wraps below 6 rows. The model requires a height of at least 6 instead of modelling the wrap.
- Configuration.Lower: Rust's `to_lowercase` folds all of Unicode. The model folds the ASCII letters only. So names that differ only in non-ASCII case (a stored "Émile" looked up as "émile") match in the source but not in the model. The general lookup contracts (`GetContactCaseInsensitive`, `GetContactInfo`, `ResolveUniqueMatch`) hold for any `Lower`. `ResolveMomScenario` and `ResolveAnyCaseScenario` use only ASCII letters, where the model and `to_lowercase` agree.
- Setup.CursorGlyph: the glyph's source text is damaged. Its bytes place it among the Unicode block elements, and the model uses U+258F. No property depends on which glyph it is.
- Setup.SetupView.RunUi: a returned configuration is stated only to hold "a normalised non-empty contact". The exact buffer contents at commit time are not named. `HandleKey` states them per key. For the same reason the loop's contract does not say which Enter commits: that depends on whether the contact buffer is empty at that moment. It says only that the view returns at an Esc, Ctrl+C or Enter with no earlier quit key or fault.
- `Config::load`, `save` and `config_path` are not modelled; they are file I/O. The `config.save()?` calls in `main.rs` are left out too, so a failed save after a remove or after setup is not modelled.
- The messages `main` prints (verbose notes, "Removed contact …") are not modelled. The `remove` report is kept as a value instead.
- The error messages the chat views print are not modelled: the `eprintln!` after a failed send (src/tui/chat.rs:108-110, src/tui.rs:131-133) and the `println!` of the loop error in `run_tui` (src/tui.rs:94-96). The failure itself is kept in the model: `SendMessage` returns it and `RunTui` returns `Ok`.
- The other commands of `main.rs` are not part of this model: `add`, `config set-contact`, `config set-name` and `show`, and opening the contacts view. The `contacts remove` subcommand (src/main.rs:126-151) is the same code as `remove` and is covered by `Dispatch.RemoveCommand`.
- `src/cli.rs` (clap declarations) and `src/tui/mod.rs` (re-exports) are not part of this model.
- Running a view inside the terminal session is not modelled as one method. `RunUi`'s end and `Errors.RunTerminal` are separate pieces.
- Key release events are not modelled. A key event carries only its code and whether Control is held.

=== FILE: chat.dfy ===
/**
 * The chat view (src/tui/chat.rs): the transcript of one conversation,
 * the line being typed, the scroll position and the flag asking for the
 * scroll position to be recomputed. The message store and the sender are
 * outside the model: each fetch and each delivery attempt arrives as an
 * input value.
 */
module Chat {
  import opened Wrappers
  import opened Errors
  import opened Keys

  /** The message store returns at most this many messages (`LIMIT 50`). */
  const PageSize: nat := 50

  /** Rows of the terminal taken by the title and input boxes around the transcript. */
  const Chrome: nat := 6

  /**
   * One message as fetched: its text, its timestamp (Unix seconds), the
   * store's label for a non-text message ("Image", "Audio Message", ...)
   * and whether it was sent by the user.
   */
  datatype Message = Message(text: Option<string>, timestamp: int, kind: Option<string>, isFromMe: bool)

  datatype Alignment = Left | Right

  /** One rendered transcript line (its "HH:MM: " time prefix is not modelled). */
  datatype Row = Row(content: string, alignment: Alignment)

  function Min(a: nat, b: nat): nat
  {
    if a <= b then a else b
  }

  // ---------------------------------------------------------------------
  // Newest-first to oldest-first

  function Reverse<T>(s: seq<T>): (r: seq<T>)
    ensures |r| == |s|
  {
    if s == [] then [] else Reverse(s[1..]) + [s[0]]
  }

  lemma {:induction false} ReverseAt<T>(s: seq<T>, k: nat)
    requires k < |s|
    ensures Reverse(s)[k] == s[|s| - 1 - k]
  {
    if k < |s| - 1 {
      ReverseAt(s[1..], k);
    }
  }

  /** Reversing twice restores the fetched order. */
  lemma ReverseReverse<T>(s: seq<T>)
    ensures Reverse(Reverse(s)) == s
  {
    forall k | 0 <= k < |s| ensures Reverse(Reverse(s))[k] == s[k] {
      ReverseAt(Reverse(s), k);
      ReverseAt(s, |s| - 1 - k);
    }
  }

  /** After a load the newest fetched message (the store's first) is the transcript's last. */
  lemma NewestIsLast(fetched: seq<Message>)
    requires fetched != []
    ensures Reverse(fetched)[|fetched| - 1] == fetched[0]
    ensures Reverse(fetched)[0] == fetched[|fetched| - 1]
  {
    ReverseAt(fetched, |fetched| - 1);
    ReverseAt(fetched, 0);
  }

  /** `Vec::reverse`, in place. */
  method ReverseMessages(a: array<Message>)
    modifies a
    ensures a[..] == Reverse(old(a[..]))
  {
    var n := a.Length;
    var i := 0;
    while i < n - 1 - i
      invariant 0 <= i <= n - i
      invariant forall k :: 0 <= k < i ==> a[k] == old(a[n - 1 - k]) && a[n - 1 - k] == old(a[k])
      invariant forall k :: i <= k < n - i ==> a[k] == old(a[k])
    {
      a[i], a[n - 1 - i] := a[n - 1 - i], a[i];
      i := i + 1;
    }
    forall k | 0 <= k < n ensures a[..][k] == Reverse(old(a[..]))[k] {
      ReverseAt(old(a[..]), k);
    }
  }

  // ---------------------------------------------------------------------
  // Scrolling and the visible range

  /**
   * The largest scroll position at terminal height `height`:
   * `len.saturating_sub(len.min(height - 6))`, where `height - 6` is `u16`
   * arithmetic that would underflow below 6 rows (hence the precondition).
   * The scroll reset jumps straight to it.
   */
  function MaxScroll(len: nat, height: nat): (r: nat)
    requires height >= Chrome
    ensures r <= len
    ensures r + Min(len, height - Chrome) == len
    ensures r == 0 <==> len <= height - Chrome
  {
    len - Min(len, height - Chrome)
  }

  /** `start_idx..end_idx` in `render`: from the scroll position, at most one screenful, never past the end. */
  function VisibleRange(scroll: nat, len: nat, areaHeight: nat): (r: (nat, nat))
    ensures r.0 == scroll && r.1 <= len
    ensures r.0 <= r.1 ==> r.1 - r.0 <= Min(len, areaHeight)
    ensures scroll <= len ==> r.0 <= r.1
  {
    (scroll, Min(scroll + Min(len, areaHeight), len))
  }

  /** A message's text, else its bracketed kind, else a placeholder. */
  function ContentLabel(m: Message): string
  {
    match m.text
    case Some(text) => text
    case None =>
      match m.kind
      case Some(kind) => "[" + kind + "]"
      case None => "<empty message>"
  }

  /** Outgoing messages are right-aligned, incoming ones left-aligned. */
  function RowOf(m: Message): Row
  {
    Row(ContentLabel(m), if m.isFromMe then Right else Left)
  }

  /**
   * The transcript lines `render` draws into an area `areaHeight` rows
   * high: every index it touches is a message, and there are never more
   * lines than layout slots (`min(len, areaHeight)`).
   */
  function RenderedRows(messages: seq<Message>, scroll: nat, areaHeight: nat): (rows: seq<Row>)
    ensures |rows| <= Min(|messages|, areaHeight)
    ensures |rows| == if scroll < |messages| then Min(|messages| - scroll, Min(|messages|, areaHeight)) else 0
    ensures forall i :: 0 <= i < |rows| ==> scroll + i < |messages| && rows[i] == RowOf(messages[scroll + i])
  {
    var (start, end) := VisibleRange(scroll, |messages|, areaHeight);
    if start >= end then []
    else seq(end - start, i requires 0 <= i < end - start => RowOf(messages[start + i]))
  }

  /**
   * After a scroll reset at height `height` the transcript area (the rows
   * left below and above the chrome) ends with the newest message and is
   * as full as it can be.
   */
  lemma ResetShowsNewest(messages: seq<Message>, height: nat)
    requires messages != [] && height >= Chrome
    ensures var rows := RenderedRows(messages, MaxScroll(|messages|, height), height - Chrome);
      |rows| == Min(|messages|, height - Chrome) &&
      (rows != [] ==> rows[|rows| - 1] == RowOf(messages[|messages| - 1]))
  {
  }

  // ---------------------------------------------------------------------
  // The view

  /**
   * What one iteration of `run_ui` receives from outside: the terminal
   * height, the poll's outcome, and — used only if Enter sends — the
   * sender's verdict and the reload's fetch.
   */
  datatype ChatTick = ChatTick(height: nat, poll: Poll, delivery: Result<(), Error>, reload: Result<seq<Message>, Error>)

  /** A tick the model can take: a terminal at least 6 rows high and a fetch within the page size. */
  predicate TickOk(t: ChatTick)
  {
    t.height >= Chrome && (t.reload.Ok? ==> |t.reload.value| <= PageSize)
  }

  /** The poll outcomes of a run of ticks, in order. */
  function PollsOf(ticks: seq<ChatTick>): (polls: seq<Poll>)
    ensures |polls| == |ticks|
    ensures forall j :: 0 <= j < |ticks| ==> polls[j] == ticks[j].poll
  {
    seq(|ticks|, j requires 0 <= j < |ticks| => ticks[j].poll)
  }

  /**
   * What a finished chat loop says about its ticks: its end and its lines
   * are `FirstExit` and `Typing` of the polls; a failure is some tick's
   * fault, a return some tick's quit key; no sent line is empty.
   */
  lemma LoopEndFacts(ticks: seq<ChatTick>, quits: KeyEvent -> bool, input0: string,
                     end: LoopEnd<()>, input: string, sent: seq<string>)
    requires Finished(PollsOf(ticks), quits, input0, end, input, sent)
    ensures end == FirstExit(PollsOf(ticks), quits)
    ensures Typing(PollsOf(ticks), input0, quits) == Typed(input, sent)
    ensures end.Failed? ==> exists j :: 0 <= j < |ticks| && ticks[j].poll == Fault(end.message)
    ensures end.Returned? ==> exists j :: 0 <= j < |ticks| && ticks[j].poll.Key? && quits(ticks[j].poll.event)
    ensures forall j :: 0 <= j < |sent| ==> sent[j] != []
  {
    FirstExitFirstStop(PollsOf(ticks), quits);
    TypingSendsNonEmpty(PollsOf(ticks), input0, quits);
  }

  predicate ConstantHeight(ticks: seq<ChatTick>)
  {
    forall j :: 0 <= j < |ticks| ==> ticks[j].height == ticks[0].height
  }

  class ChatView {
    var messages: seq<Message>
    var input: string
    var scroll: nat
    const contact: string
    const displayName: string
    var shouldResetScroll: bool
    /** Every text handed to the sender, in order. */
    ghost var outbox: seq<string>

    /**
     * The transcript is one page at most, and unless a reset is pending the
     * scroll position is within the transcript.
     */
    ghost predicate Valid()
      reads this
    {
      |messages| <= PageSize && (!shouldResetScroll ==> scroll <= |messages|)
    }

    /** At a fixed height, unless a reset is pending, the scroll position is at most `MaxScroll`. */
    ghost predicate ScrollFits(height: nat)
      reads this
    {
      height >= Chrome && (!shouldResetScroll ==> scroll <= MaxScroll(|messages|, height))
    }

    /** `ChatView::new`: empty transcript and input, scroll 0, a reset pending. */
    constructor (contact: string, displayName: string)
      ensures Valid()
      ensures this.contact == contact && this.displayName == displayName
      ensures messages == [] && input == [] && scroll == 0 && shouldResetScroll
      ensures outbox == []
    {
      this.contact := contact;
      this.displayName := displayName;
      messages := [];
      input := [];
      scroll := 0;
      shouldResetScroll := true;
      outbox := [];
    }

    /**
     * `load_messages`: the fetch, newest first, is stored oldest first and a
     * scroll reset is requested; a failed fetch changes nothing.
     */
    method LoadMessages(fetched: Result<seq<Message>, Error>) returns (r: Result<(), Error>)
      requires Valid()
      requires fetched.Ok? ==> |fetched.value| <= PageSize
      modifies this
      ensures Valid()
      ensures r.Ok? <==> fetched.Ok?
      ensures fetched.Err? ==> r.error == fetched.error && unchanged(this)
      ensures fetched.Ok? ==> messages == Reverse(fetched.value) && shouldResetScroll
      ensures fetched.Ok? ==> input == old(input) && scroll == old(scroll) && outbox == old(outbox)
    {
      match fetched {
        case Err(e) =>
          return Err(e);
        case Ok(fetchedMessages) =>
          var buffer := new Message[|fetchedMessages|](i requires 0 <= i < |fetchedMessages| => fetchedMessages[i]);
          assert buffer[..] == fetchedMessages;
          ReverseMessages(buffer);
          messages := buffer[..];
          shouldResetScroll := true;
          return Ok(());
      }
    }

    /**
     * `send_message`: hand `text` to the sender; only if delivery succeeds
     * is the transcript reloaded. Either failure is returned.
     */
    method SendMessage(text: string, delivery: Result<(), Error>, reload: Result<seq<Message>, Error>)
      returns (r: Result<(), Error>)
      requires Valid()
      requires reload.Ok? ==> |reload.value| <= PageSize
      modifies this
      ensures Valid()
      ensures outbox == old(outbox) + [text]
      ensures input == old(input) && scroll == old(scroll)
      ensures r.Ok? <==> delivery.Ok? && reload.Ok?
      ensures delivery.Err? ==> r.error == delivery.error
      ensures delivery.Ok? && reload.Err? ==> r.error == reload.error
      ensures delivery.Ok? && reload.Ok? ==> messages == Reverse(reload.value) && shouldResetScroll
      ensures !(delivery.Ok? && reload.Ok?) ==>
        messages == old(messages) && shouldResetScroll == old(shouldResetScroll)
    {
      outbox := outbox + [text];
      if delivery.Err? {
        return Err(delivery.error);
      }
      r := LoadMessages(reload);
    }

    /**
     * The reset at the top of each loop iteration: when requested and the
     * transcript is not empty, scroll so the newest message is on the last
     * visible row, and clear the request.
     */
    method ResetScroll(height: nat)
      requires Valid() && height >= Chrome
      modifies this
      ensures Valid()
      ensures old(shouldResetScroll) && old(messages) != [] ==>
        scroll == MaxScroll(|messages|, height) && !shouldResetScroll
      ensures !(old(shouldResetScroll) && old(messages) != []) ==> scroll == old(scroll) && shouldResetScroll == old(shouldResetScroll)
      ensures messages == old(messages) && input == old(input) && outbox == old(outbox)
      ensures old(shouldResetScroll) || old(ScrollFits(height)) ==> ScrollFits(height)
    {
      if shouldResetScroll && messages != [] {
        scroll := MaxScroll(|messages|, height);
        shouldResetScroll := false;
      }
    }

    /**
     * One key event of `run_ui`; true when the view quits. Esc and Ctrl+C
     * (matched before the character arm) quit; characters are typed;
     * Backspace deletes; Enter sends a non-empty line and then clears it
     * whatever the outcome; Up and Down scroll within `[0, MaxScroll]`.
     */
    method HandleKey(k: KeyEvent, height: nat, delivery: Result<(), Error>, reload: Result<seq<Message>, Error>)
      returns (quit: bool)
      requires Valid() && height >= Chrome
      requires reload.Ok? ==> |reload.value| <= PageSize
      modifies this
      ensures Valid()
      ensures old(ScrollFits(height)) ==> ScrollFits(height)
      ensures quit <==> k.code == Esc || IsCtrlC(k)
      ensures quit ==> unchanged(this)
      ensures k.code.Char? && !IsCtrlC(k) ==>
        input == old(input) + [k.code.c] && messages == old(messages) && scroll == old(scroll)
        && shouldResetScroll == old(shouldResetScroll) && outbox == old(outbox)
      ensures k.code == Backspace ==>
        input == Pop(old(input)) && messages == old(messages) && scroll == old(scroll)
        && shouldResetScroll == old(shouldResetScroll) && outbox == old(outbox)
      ensures k.code == Enter && old(input) == [] ==> unchanged(this)
      ensures k.code == Enter && old(input) != [] ==>
        input == [] && outbox == old(outbox) + [old(input)] && scroll == old(scroll)
        && (delivery.Ok? && reload.Ok? ==> messages == Reverse(reload.value) && shouldResetScroll)
        && (!(delivery.Ok? && reload.Ok?) ==>
              messages == old(messages) && shouldResetScroll == old(shouldResetScroll))
      ensures k.code == Up ==>
        scroll == (if old(scroll) > 0 then old(scroll) - 1 else 0)
        && input == old(input) && messages == old(messages)
        && shouldResetScroll == old(shouldResetScroll) && outbox == old(outbox)
      ensures k.code == Down ==>
        scroll == (if old(scroll) < MaxScroll(|messages|, height) then old(scroll) + 1 else old(scroll))
        && input == old(input) && messages == old(messages)
        && shouldResetScroll == old(shouldResetScroll) && outbox == old(outbox)
      ensures k.code in {Tab, OtherKey} ==> unchanged(this)
    {
      quit := false;
      match k.code {
        case Esc =>
          quit := true;
        case Char(c) =>
          if IsCtrlC(k) {
            quit := true;
          } else {
            input := input + [c];
          }
        case Backspace =>
          input := Pop(input);
        case Enter =>
          if input != [] {
            var line := input;
            var sent := SendMessage(line, delivery, reload);
            // a failed send is reported on stderr and the loop goes on
            input := [];
          }
        case Up =>
          if scroll > 0 {
            scroll := scroll - 1;
          }
        case Down =>
          var maxScroll := MaxScroll(|messages|, height);
          if scroll < maxScroll {
            scroll := scroll + 1;
          }
        case _ =>
      }
    }

    /**
     * One iteration of the loop: reset the scroll if requested, then handle
     * the poll. The result is how the loop ends here, or `Polling` to go on;
     * a key that does not quit is fed to the input line.
     */
    method Tick(t: ChatTick) returns (end: LoopEnd<()>)
      requires Valid() && TickOk(t)
      modifies this
      ensures Valid()
      ensures old(shouldResetScroll) || old(ScrollFits(t.height)) ==> ScrollFits(t.height)
      ensures end == (if t.poll.Fault? then Failed(t.poll.detail)
                      else if Stops(t.poll, LeavesView) then Returned(()) else Polling)
      ensures t.poll.Key? && !Stops(t.poll, LeavesView) ==>
        input == Feed(t.poll.event.code, old(input)).input
        && outbox == old(outbox) + Feed(t.poll.event.code, old(input)).sent
      ensures !(t.poll.Key? && !Stops(t.poll, LeavesView)) ==> input == old(input) && outbox == old(outbox)
    {
      ResetScroll(t.height);
      end := Polling;
      match t.poll {
        case Fault(detail) =>
          end := Failed(detail);
        case Idle =>
        case Key(k) =>
          var quit := HandleKey(k, t.height, t.delivery, t.reload);
          if quit {
            end := Returned(());
          }
      }
    }

    /**
     * `run_ui`: load the transcript (a failure ends the view), then one
     * iteration per tick — reset the scroll if requested, then handle the
     * poll — until a key quits or the terminal fails. Nothing empty is ever
     * sent, and at a constant height the scroll position stays within
     * `MaxScroll` whenever no reset is pending.
     */
    method RunUi(initial: Result<seq<Message>, Error>, ticks: seq<ChatTick>) returns (end: LoopEnd<()>)
      requires Valid()
      requires initial.Ok? ==> |initial.value| <= PageSize
      requires forall j :: 0 <= j < |ticks| ==> TickOk(ticks[j])
      modifies this
      ensures Valid()
      ensures initial.Err? ==> end == Failed(Describe(initial.error)) && unchanged(this)
      ensures end.Failed? && initial.Ok? ==> exists j :: 0 <= j < |ticks| && ticks[j].poll == Fault(end.message)
      ensures forall j :: |old(outbox)| <= j < |outbox| ==> outbox[j] != []
      ensures initial.Ok? && ticks != [] && ConstantHeight(ticks) ==> ScrollFits(ticks[0].height)
      ensures initial.Ok? ==> end == FirstExit(PollsOf(ticks), LeavesView)
      ensures initial.Ok? ==>
        var typed := Typing(PollsOf(ticks), old(input), LeavesView);
        outbox == old(outbox) + typed.sent && input == typed.input
    {
      var loaded := LoadMessages(initial);
      if loaded.Err? {
        return Failed(Describe(loaded.error));
      }
      end := Polling;
      var i := 0;
      ghost var polls := PollsOf(ticks);
      ghost var sent: seq<string> := [];
      ProgressStart(polls, LeavesView, old(input));
      while i < |ticks| && end.Polling?
        invariant 0 <= i <= |ticks|
        invariant Valid()
        invariant ticks != [] && ConstantHeight(ticks) ==> ScrollFits(ticks[0].height)
        invariant outbox == old(outbox) + sent
        invariant end.Polling? ==> Progress(polls, LeavesView, old(input), i, input, sent)
        invariant !end.Polling? ==> Finished(polls, LeavesView, old(input), end, input, sent)
      {
        ghost var line, sentBefore := input, sent;
        end := Tick(ticks[i]);
        if ticks[i].poll.Key? && !Stops(ticks[i].poll, LeavesView) {
          sent := sent + Feed(ticks[i].poll.event.code, line).sent;
        }
        ProgressStep(polls, LeavesView, old(input), i, line, sentBefore, end, input, sent);
        i := i + 1;
      }
      if end.Polling? {
        ProgressEnd(polls, LeavesView, old(input), input, sent);
      }
      LoopEndFacts(ticks, LeavesView, old(input), end, input, sent);
      forall j | |old(outbox)| <= j < |outbox|
        ensures outbox[j] != []
      {
        assert outbox[j] == sent[j - |old(outbox)|];
      }
    }

    /** The transcript lines drawn into an area `areaHeight` rows high (`render`). */
    function Rows(areaHeight: nat): seq<Row>
      reads this
    {
      RenderedRows(messages, scroll, areaHeight)
    }
  }
}

=== FILE: config.dfy ===
/**
 * The contact directory (src/config.rs): an optional default contact, an
 * optional default display name and a map from user-chosen names to
 * contact entries, updated in place by its setters.
 */
module Configuration {
  import opened Wrappers

  /** A named contact: its canonical identifier and an optional display name. */
  datatype ContactEntry = ContactEntry(identifier: string, displayName: Option<string>)

  /**
   * Lower-casing used for case-insensitive name lookup. Rust's
   * `str::to_lowercase` folds all of Unicode; this model folds the ASCII
   * letters only. The lookup results below depend only on `Lower` being a
   * function, never on how it folds.
   */
  function LowerChar(c: char): char
  {
    if 'A' <= c <= 'Z' then (c as int + 32) as char else c
  }

  function Lower(s: string): (r: string)
    ensures |r| == |s|
    ensures forall i :: 0 <= i < |s| ==> r[i] == LowerChar(s[i])
  {
    seq(|s|, i requires 0 <= i < |s| => LowerChar(s[i]))
  }

  /** `k` names the same contact as `name` when compared case-insensitively. */
  predicate SameName(k: string, name: string)
  {
    Lower(k) == Lower(name)
  }

  /** Some key of `contacts` matches `name` case-insensitively. */
  predicate HasMatch(contacts: map<string, ContactEntry>, name: string)
  {
    exists k :: k in contacts && SameName(k, name)
  }

  class Config {
    var defaultContact: Option<string>
    var defaultDisplayName: Option<string>
    var contacts: map<string, ContactEntry>

    /** `Config::default()`: nothing configured. */
    constructor ()
      ensures defaultContact == None && defaultDisplayName == None
      ensures contacts == map[] && ContactCount() == 0
    {
      defaultContact := None;
      defaultDisplayName := None;
      contacts := map[];
    }

    /** The derived `Clone`: a fresh object holding the same three values. */
    method Clone() returns (c: Config)
      ensures fresh(c)
      ensures c.defaultContact == defaultContact && c.defaultDisplayName == defaultDisplayName
      ensures c.contacts == contacts
    {
      c := new Config();
      c.defaultContact := defaultContact;
      c.defaultDisplayName := defaultDisplayName;
      c.contacts := contacts;
    }

    /** `default_contact()` */
    function DefaultContact(): Option<string>
      reads this
    {
      defaultContact
    }

    /** `default_display_name()` */
    function DefaultDisplayName(): Option<string>
      reads this
    {
      defaultDisplayName
    }

    /** `set_default_contact`: the getter then answers `Some(contact)`; nothing else changes. */
    method SetDefaultContact(contact: string)
      modifies this
      ensures DefaultContact() == Some(contact)
      ensures DefaultDisplayName() == old(DefaultDisplayName()) && contacts == old(contacts)
    {
      defaultContact := Some(contact);
    }

    /** `set_default_display_name`: the getter then answers `Some(name)`; nothing else changes. */
    method SetDefaultDisplayName(name: string)
      modifies this
      ensures DefaultDisplayName() == Some(name)
      ensures DefaultContact() == old(DefaultContact()) && contacts == old(contacts)
    {
      defaultDisplayName := Some(name);
    }

    /** `add_contact`: insert or overwrite the entry under `name`. */
    method AddContact(name: string, identifier: string, displayName: Option<string>)
      modifies this
      ensures name in contacts && contacts[name] == ContactEntry(identifier, displayName)
      ensures forall k :: k != name ==> (k in contacts <==> k in old(contacts))
      ensures forall k :: k in old(contacts) && k != name ==> contacts[k] == old(contacts)[k]
      ensures ContactCount() == old(ContactCount()) + (if name in old(contacts) then 0 else 1)
      ensures defaultContact == old(defaultContact) && defaultDisplayName == old(defaultDisplayName)
    {
      contacts := contacts[name := ContactEntry(identifier, displayName)];
    }

    /** `remove_contact`: true exactly when `name` was a key; afterwards it is not. */
    method RemoveContact(name: string) returns (removed: bool)
      modifies this
      ensures removed == (name in old(contacts))
      ensures contacts == old(contacts) - {name}
      ensures ContactCount() == old(ContactCount()) - (if removed then 1 else 0)
      ensures defaultContact == old(defaultContact) && defaultDisplayName == old(defaultDisplayName)
    {
      removed := name in contacts;
      contacts := contacts - {name};
    }

    /** `get_contact`: exact, case-sensitive lookup. */
    function GetContact(name: string): (r: Option<ContactEntry>)
      reads this
      ensures r.Some? <==> name in contacts
      ensures r.Some? ==> r.value == contacts[name]
    {
      if name in contacts then Some(contacts[name]) else None
    }

    /**
     * `get_contact_case_insensitive`: the first key, in the map's unspecified
     * iteration order, whose lower-cased form equals that of `name`. Which of
     * several such keys comes back is deliberately left open.
     */
    method GetContactCaseInsensitive(name: string) returns (r: Option<(string, ContactEntry)>)
      ensures r.None? <==> !HasMatch(contacts, name)
      ensures r.Some? ==> r.value.0 in contacts && contacts[r.value.0] == r.value.1
                          && SameName(r.value.0, name)
    {
      if exists k :: k in contacts && SameName(k, name) {
        var k :| k in contacts && SameName(k, name);
        r := Some((k, contacts[k]));
      } else {
        r := None;
      }
    }

    /**
     * `list_contacts`: every entry exactly once, in the map's unspecified
     * iteration order (modelled by picking any remaining key each step).
     */
    method ListContacts() returns (r: seq<(string, ContactEntry)>)
      ensures |r| == ContactCount()
      ensures forall p :: p in r <==> p.0 in contacts && contacts[p.0] == p.1
      ensures forall i, j :: 0 <= i < j < |r| ==> r[i].0 != r[j].0
    {
      var remaining := contacts.Keys;
      r := [];
      while remaining != {}
        invariant remaining <= contacts.Keys
        invariant |r| + |remaining| == |contacts|
        invariant forall p :: p in r ==> p.0 in contacts && contacts[p.0] == p.1 && p.0 !in remaining
        invariant forall k :: k in contacts && k !in remaining ==> (k, contacts[k]) in r
        invariant forall i, j :: 0 <= i < j < |r| ==> r[i].0 != r[j].0
        decreases |remaining|
      {
        var k :| k in remaining;
        r := r + [(k, contacts[k])];
        remaining := remaining - {k};
      }
    }

    /** `contact_count`: the number of named contacts. */
    function ContactCount(): nat
      reads this
    {
      |contacts|
    }
  }

  /**
   * An exact key is always a case-insensitive match, so once the
   * case-insensitive search has found nothing, the exact lookup finds nothing either.
   */
  lemma ExactFallbackNeverHits(config: Config, name: string)
    requires !HasMatch(config.contacts, name)
    ensures config.GetContact(name) == None
  {
    if name in config.contacts {
      assert SameName(name, name);
    }
  }
}

=== FILE: contacts.dfy ===
/**
 * The contacts list view (src/tui/contacts.rs): read-only browsing of the
 * directory with one selected row, plus the label strings it draws.
 */
module Contacts {
  import opened Wrappers
  import opened Configuration
  import opened Keys

  /** `count.saturating_sub(1)`: the last selectable row, 0 for an empty list. */
  function LastIndex(count: nat): nat
  {
    if count == 0 then 0 else count - 1
  }

  /** The "Default Contact" panel: `display (id)`, or `id`, or "None". */
  function DefaultContactLabel(defaultContact: Option<string>, defaultDisplayName: Option<string>): (r: string)
    ensures defaultContact.None? ==> r == "None"
    ensures defaultContact.Some? && defaultDisplayName.None? ==> r == defaultContact.value
    ensures defaultContact.Some? && defaultDisplayName.Some? ==>
      var d, id := defaultDisplayName.value, defaultContact.value;
      |r| == |d| + |id| + 3 && r[..|d|] == d && r[|d|..|d| + 2] == " (" &&
      r[|d| + 2..|d| + 2 + |id|] == id && r[|r| - 1] == ')'
  {
    match defaultContact
    case None => "None"
    case Some(id) =>
      match defaultDisplayName
      case Some(display) => display + " (" + id + ")"
      case None => id
  }

  /** One row of "Named Contacts": `name: display (id)` or `name: id`. */
  function RowLabel(name: string, entry: ContactEntry): string
  {
    var shown := match entry.displayName
      case Some(display) => display + " (" + entry.identifier + ")"
      case None => entry.identifier;
    name + ": " + shown
  }

  /** A row starts with the contact's name and a colon, followed by the entry's shown form. */
  lemma RowLabelShape(name: string, entry: ContactEntry)
    ensures var r := RowLabel(name, entry);
      |r| >= |name| + 2 && r[..|name| + 2] == name + ": " &&
      r[|name| + 2..] == DefaultContactLabel(Some(entry.identifier), entry.displayName)
  {
    var r := RowLabel(name, entry);
    assert r == (name + ": ") + r[|name| + 2..];
  }

  class ContactsView {
    const config: Config
    var selectedIndex: nat

    /** The selection never points past the last row (row 0 for an empty list). */
    ghost predicate Valid()
      reads this, config
    {
      selectedIndex <= LastIndex(config.ContactCount())
    }

    /** `ContactsView::new`: the first row selected. */
    constructor (config: Config)
      ensures this.config == config && selectedIndex == 0 && Valid()
    {
      this.config := config;
      selectedIndex := 0;
    }

    /**
     * One key event of `run_ui`: true when the view quits. Only the
     * selection can change; the configuration is never written.
     */
    method HandleKey(k: KeyEvent) returns (quit: bool)
      requires Valid()
      modifies this
      ensures Valid() && unchanged(config)
      ensures quit <==> k.code == Esc || IsCtrlC(k)
      ensures k.code == Up ==> selectedIndex == if old(selectedIndex) > 0 then old(selectedIndex) - 1 else 0
      ensures k.code == Down ==>
        selectedIndex == if old(selectedIndex) < LastIndex(config.ContactCount())
                         then old(selectedIndex) + 1 else old(selectedIndex)
      ensures k.code == Down ==> selectedIndex == DownN(config.ContactCount(), old(selectedIndex), 1)
      ensures k.code != Up && k.code != Down ==> selectedIndex == old(selectedIndex)
    {
      quit := false;
      match k.code {
        case Esc =>
          quit := true;
        case Char(c) =>
          if IsCtrlC(k) {
            quit := true;
          }
        case Up =>
          if selectedIndex > 0 {
            selectedIndex := selectedIndex - 1;
          }
        case Down =>
          var contactCount := config.ContactCount();
          if selectedIndex < LastIndex(contactCount) {
            selectedIndex := selectedIndex + 1;
          }
        case _ =>
      }
    }

    /**
     * The `run_ui` loop over a finite stream of polls: it stops when a key
     * quits the view or a terminal failure occurs; the selection stays in
     * range throughout.
     */
    method RunUi(polls: seq<Poll>) returns (end: LoopEnd<()>)
      requires Valid()
      modifies this
      ensures Valid() && unchanged(config)
      ensures end.Failed? ==> exists i :: 0 <= i < |polls| && polls[i] == Fault(end.message)
      ensures end.Polling? ==> forall i :: 0 <= i < |polls| ==>
        polls[i].Key? ==> polls[i].event.code != Esc && !IsCtrlC(polls[i].event)
      ensures end == FirstExit(polls, LeavesView)
    {
      end := Polling;
      var i := 0;
      while i < |polls| && end.Polling?
        invariant 0 <= i <= |polls|
        invariant Valid()
        invariant end.Failed? ==> exists j :: 0 <= j < i && polls[j] == Fault(end.message)
        invariant end.Polling? ==> forall j :: 0 <= j < i ==>
          polls[j].Key? ==> polls[j].event.code != Esc && !IsCtrlC(polls[j].event)
        invariant end.Polling? ==> FirstExit(polls, LeavesView) == FirstExit(polls[i..], LeavesView)
        invariant !end.Polling? ==> FirstExit(polls, LeavesView) == end
      {
        FirstExitStep(polls, LeavesView, i);
        match polls[i] {
          case Fault(detail) =>
            end := Failed(detail);
          case Idle =>
          case Key(k) =>
            var quit := HandleKey(k);
            if quit {
              end := Returned(());
            }
        }
        i := i + 1;
      }
      assert end.Polling? ==> polls[i..] == [];
    }

    /** The "Default Contact" panel's text (`render`). */
    function DefaultPanel(): string
      reads this, config
    {
      DefaultContactLabel(config.DefaultContact(), config.DefaultDisplayName())
    }

    /**
     * The "Named Contacts" rows (`render`), one per entry, in the
     * directory's unspecified iteration order; the highlighted index is
     * a row whenever there is one.
     */
    method Rows() returns (rows: seq<string>)
      requires Valid()
      ensures |rows| == config.ContactCount()
      ensures forall i :: 0 <= i < |rows| ==> rows[i] in LabelSet(config.contacts)
      ensures forall name :: name in config.contacts ==> RowLabel(name, config.contacts[name]) in rows
      ensures rows != [] ==> selectedIndex < |rows|
    {
      var entries := config.ListContacts();
      rows := Labels(entries);
      LabelsCover(entries, config.contacts);
    }
  }

  /** The label of every named contact, in no order. */
  function LabelSet(contacts: map<string, ContactEntry>): set<string>
  {
    set name | name in contacts :: RowLabel(name, contacts[name])
  }

  /** The row labels of a listing, in listing order. */
  function Labels(entries: seq<(string, ContactEntry)>): (r: seq<string>)
    ensures |r| == |entries|
  {
    seq(|entries|, i requires 0 <= i < |entries| => RowLabel(entries[i].0, entries[i].1))
  }

  /** A listing that holds exactly the directory's pairs labels every contact and nothing else. */
  lemma LabelsCover(entries: seq<(string, ContactEntry)>, contacts: map<string, ContactEntry>)
    requires forall p :: p in entries <==> p.0 in contacts && contacts[p.0] == p.1
    ensures forall i :: 0 <= i < |entries| ==> Labels(entries)[i] in LabelSet(contacts)
    ensures forall name :: name in contacts ==> RowLabel(name, contacts[name]) in Labels(entries)
  {
    var rows := Labels(entries);
    forall i | 0 <= i < |rows|
      ensures rows[i] in LabelSet(contacts)
    {
      assert entries[i] in entries;
    }
    forall name | name in contacts
      ensures RowLabel(name, contacts[name]) in rows
    {
      assert (name, contacts[name]) in entries;
      var i :| 0 <= i < |entries| && entries[i] == (name, contacts[name]);
      assert rows[i] == RowLabel(name, contacts[name]);
    }
  }

  /** Pressing Down any number of times never moves past the last row, also for an empty list. */
  lemma {:induction false} DownClamps(count: nat, index: nat, presses: nat)
    requires index <= LastIndex(count)
    decreases presses
    ensures DownN(count, index, presses) <= LastIndex(count)
    ensures presses >= LastIndex(count) - index ==> DownN(count, index, presses) == LastIndex(count)
    ensures count == 0 ==> DownN(count, index, presses) == 0
  {
    if presses > 0 {
      DownClamps(count, if index < LastIndex(count) then index + 1 else index, presses - 1);
    }
  }

  /** The selection after `presses` Down keys from `index`. */
  function DownN(count: nat, index: nat, presses: nat): nat
    decreases presses
  {
    if presses == 0 then index
    else DownN(count, if index < LastIndex(count) then index + 1 else index, presses - 1)
  }
}

=== FILE: dispatch.dfy ===
/**
 * The decision logic of the command-line entry point (src/main.rs): which
 * contact a chat opens with, the `remove` command, and what happens after
 * the first-run setup view returns. Loading and saving the configuration
 * file and the printed messages are left to the caller.
 */
module Dispatch {
  import opened Wrappers
  import opened Errors
  import opened Formatter
  import opened Configuration

  /** The chat target: an identifier and the name shown for it. */
  type Target = (string, string)

  /** A stored display name if there is one, else the identifier without its country code. */
  function DisplayOr(displayName: Option<string>, identifier: string): string
  {
    match displayName
    case Some(name) => name
    case None => FormatDisplayNumber(identifier)
  }

  /** The error text for a named contact that is not in the directory. */
  function NotFoundMessage(name: string): string
  {
    "Contact '" + name + "' not found in configuration"
  }

  /**
   * The last step of `get_contact_info`, and equally the fallback after the
   * setup view: the default contact with the default display name, or
   * `NoContact` when no default is set.
   */
  function ResolveDefault(config: Config): (r: Result<Target, Error>)
    reads config
    ensures r.Err? <==> config.defaultContact.None?
    ensures r.Err? ==> r.error == NoContact
    ensures r.Ok? ==> r.value.0 == config.defaultContact.value
    ensures r.Ok? && config.defaultDisplayName.Some? ==> r.value.1 == config.defaultDisplayName.value
    ensures r.Ok? && config.defaultDisplayName.None? ==> r.value.1 == FormatDisplayNumber(r.value.0)
  {
    match config.DefaultContact()
    case Some(d) => Ok((d, DisplayOr(config.DefaultDisplayName(), d)))
    case None => Err(NoContact)
  }

  /**
   * `get_contact_info`. Priority: the `--contact` flag, then a contact name
   * (case-insensitive search, then an exact-match fallback), then the
   * default contact. A name that matches nothing is an error even when a
   * default exists. The configuration is only read.
   */
  method GetContactInfo(contactName: Option<string>, contact: Option<string>, config: Config)
    returns (r: Result<Target, Error>)
    ensures contact.Some? ==>
      var formatted := FormatPhoneNumber(contact.value);
      r == Ok((formatted, FormatDisplayNumber(formatted)))
    ensures contact.None? && contactName.Some? ==>
      (r.Ok? <==> HasMatch(config.contacts, contactName.value))
    ensures contact.None? && contactName.Some? && r.Ok? ==>
      exists k :: k in config.contacts && SameName(k, contactName.value) &&
        r.value == (config.contacts[k].identifier,
                    DisplayOr(config.contacts[k].displayName, config.contacts[k].identifier))
    ensures contact.None? && contactName.Some? && r.Err? ==>
      r.error == Generic(NotFoundMessage(contactName.value))
    ensures contact.None? && contactName.None? ==> r == ResolveDefault(config)
  {
    if contact.Some? {
      var formatted := FormatPhoneNumber(contact.value);
      var display := FormatDisplayNumber(formatted);
      return Ok((formatted, display));
    }
    if contactName.Some? {
      var name := contactName.value;
      var found := config.GetContactCaseInsensitive(name);
      match found {
        case Some((actualName, entry)) =>
          return Ok((entry.identifier, DisplayOr(entry.displayName, entry.identifier)));
        case None =>
          // The exact lookup kept for backward compatibility; it cannot hit here.
          ExactFallbackNeverHits(config, name);
          match config.GetContact(name) {
            case Some(entry) =>
              return Ok((entry.identifier, DisplayOr(entry.displayName, entry.identifier)));
            case None =>
              return Err(Generic(NotFoundMessage(name)));
          }
      }
    }
    return ResolveDefault(config);
  }

  /** What the `remove` command reports. */
  datatype RemoveReport =
    | Removed(name: string)                    // the exact key was removed
    | RemovedMatched(actual: string, name: string)  // a key differing in case was removed
    | NotFound(name: string)

  /**
   * The `remove` command: find a key case-insensitively and remove that key
   * alone; with no match, try the exact name (which cannot be present) and
   * otherwise report "not found" with the directory unchanged.
   */
  method RemoveCommand(config: Config, name: string) returns (report: RemoveReport)
    modifies config
    ensures config.defaultContact == old(config.defaultContact)
    ensures config.defaultDisplayName == old(config.defaultDisplayName)
    ensures !HasMatch(old(config.contacts), name) ==>
      config.contacts == old(config.contacts) && report == NotFound(name)
    ensures HasMatch(old(config.contacts), name) ==>
      exists k :: k in old(config.contacts) && SameName(k, name) &&
        config.contacts == old(config.contacts) - {k} &&
        report == (if k == name then Removed(name) else RemovedMatched(k, name))
  {
    var found := config.GetContactCaseInsensitive(name);
    if found.Some? {
      var actualName := found.value.0;
      var removed := config.RemoveContact(actualName);
      if actualName != name {
        report := RemovedMatched(actualName, name);
      } else {
        report := Removed(name);
      }
    } else {
      var removed := config.RemoveContact(name);
      if removed {
        report := Removed(name);
      } else {
        report := NotFound(name);
      }
    }
  }

  /**
   * After the setup view: a failure of the view propagates; otherwise the
   * returned configuration's default contact opens the chat, and with no
   * default (setup cancelled) the result is `NoContact`.
   */
  function PostSetupTarget(setup: Result<Config, Error>): (r: Result<Target, Error>)
    reads if setup.Ok? then {setup.value} else {}
    ensures setup.Err? ==> r == Err(setup.error)
    ensures setup.Ok? ==> r == ResolveDefault(setup.value)
  {
    match setup
    case Err(e) => Err(e)
    case Ok(newConfig) =>
      if newConfig.DefaultContact().Some? then
        var contact := newConfig.DefaultContact().value;
        var displayName := match newConfig.DefaultDisplayName()
          case Some(name) => name
          case None => FormatDisplayNumber(contact);
        Ok((contact, displayName))
      else
        Err(NoContact)
  }

  /**
   * The example directory `{"mom": +15551234567, shown as "Mom"}`: asking
   * for "MOM" opens the chat with that identifier and display name.
   */
  method ResolveMomScenario() returns (r: Result<Target, Error>)
    ensures r == Ok(("+15551234567", "Mom"))
  {
    var config := new Config();
    config.AddContact("mom", "+15551234567", Some("Mom"));
    assert Lower("MOM") == "mom" == Lower("mom");
    assert forall k :: k in config.contacts ==> k == "mom";
    r := GetContactInfo(Some("MOM"), None, config);
  }

  /**
   * When exactly one stored key matches `name` case-insensitively, `--contact-name`
   * resolves to that entry's target, whatever the iteration order of the directory.
   */
  method ResolveUniqueMatch(config: Config, key: string, name: string) returns (r: Result<Target, Error>)
    requires key in config.contacts && SameName(key, name)
    requires forall k :: k in config.contacts && SameName(k, name) ==> k == key
    ensures r == Ok((config.contacts[key].identifier,
                     DisplayOr(config.contacts[key].displayName, config.contacts[key].identifier)))
  {
    r := GetContactInfo(Some(name), None, config);
  }

  /**
   * The stored key "Mom" is found as "mom", "MOM" and "Mom" alike, and all
   * three resolve to the same target.
   */
  method ResolveAnyCaseScenario() returns (lower: Result<Target, Error>, upper: Result<Target, Error>, exact: Result<Target, Error>)
    ensures lower == upper == exact == Ok(("+15551234567", "Mom"))
  {
    var config := new Config();
    config.AddContact("Mom", "+15551234567", Some("Mom"));
    assert Lower("mom") == Lower("MOM") == Lower("Mom") == "mom";
    assert forall k :: k in config.contacts ==> k == "Mom";
    lower := ResolveUniqueMatch(config, "Mom", "mom");
    upper := ResolveUniqueMatch(config, "Mom", "MOM");
    exact := ResolveUniqueMatch(config, "Mom", "Mom");
  }
}

=== FILE: errors.dfy ===
/**
 * The application error type (src/error.rs) and the terminal session's
 * wrapping of a view's failure (src/tui/common.rs).
 */
module Errors {
  import opened Wrappers

  /**
   * One variant per arm of the Rust enum. The payloads of the library errors
   * (rusqlite, confy, std::env, std::io) are kept only as their display text.
   */
  datatype Error =
    | Database(detail: string)
    | Configuration(detail: string)
    | Env(detail: string)
    | NoContact
    | Generic(message: string)
    | Io(detail: string)

  /** The `Display` text `thiserror` derives from the `#[error(...)]` attributes. */
  function Describe(e: Error): string
  {
    match e
    case Database(d) => "Database error: " + d
    case Configuration(d) => "Configuration error: " + d
    case Env(d) => "Environment variable error: " + d
    case NoContact => "No contact specified"
    case Generic(m) => m
    case Io(d) => "IO error: " + d
  }

  const TuiErrorPrefix: string := "TUI error: "

  /**
   * `run_terminal`: a view's loop runs between acquiring and releasing the
   * terminal; the loop's own failure (already rendered as text, like the
   * boxed error it is) is wrapped as a Generic error. Acquiring or restoring
   * the terminal can fail too, and because the restore calls use `?` a
   * restore failure replaces whatever the loop produced.
   */
  function RunTerminal<T>(acquire: Option<string>, body: Result<T, string>, restore: Option<string>): (r: Result<T, Error>)
    ensures acquire.Some? ==> r == Err(Io(acquire.value))
    ensures acquire.None? && restore.Some? ==> r == Err(Io(restore.value))
    ensures acquire.None? && restore.None? ==>
      (r.Ok? <==> body.Ok?) &&
      (body.Ok? ==> r.value == body.value) &&
      (body.Err? ==> r.error == Generic(TuiErrorPrefix + body.error))
  {
    if acquire.Some? then Err(Io(acquire.value))
    else if restore.Some? then Err(Io(restore.value))
    else match body
      case Ok(v) => Ok(v)
      case Err(s) => Err(Generic(TuiErrorPrefix + s))
  }
}

=== FILE: formatter.dfy ===
/**
 * Phone-number normalisation (src/formatter.rs): two total string functions,
 * with the branch-by-branch behaviour, idempotence and the unit-test cases
 * proved about them.
 */
module Formatter {

  /** Rust's `char::is_digit(10)`: the ASCII decimal digits only. */
  predicate IsDigit(c: char)
  {
    '0' <= c <= '9'
  }

  /** `s.chars().all(|c| c.is_digit(10))`; true of the empty string. */
  predicate AllDigits(s: string)
  {
    forall i :: 0 <= i < |s| ==> IsDigit(s[i])
  }

  predicate StartsWith(s: string, prefix: string)
  {
    |prefix| <= |s| && s[..|prefix|] == prefix
  }

  /**
   * `format_phone_number`. Rust's `len()` counts bytes; since the branch is
   * only taken when the first character is the one-byte '1', "more than one
   * byte" and "more than one character" coincide, so the model counts characters.
   */
  function FormatPhoneNumber(number: string): string
  {
    if AllDigits(number) then
      "+1" + number
    else if '+' !in number && StartsWith(number, "1") && |number| > 1 then
      var rest := number[1..];
      if AllDigits(rest) then "+1" + rest else "+" + number
    else
      number
  }

  /**
   * `format_display_number`: strips a "+1" country code, or a bare leading
   * '1' in front of digits only. `number[2..]` and `number[1..]` are byte
   * slices after one-byte prefixes, so they are the character slices used here.
   */
  function FormatDisplayNumber(number: string): string
  {
    if StartsWith(number, "+1") && |number| > 2 then
      number[2..]
    else if StartsWith(number, "1") && AllDigits(number[1..]) then
      number[1..]
    else
      number
  }

  // ---------------------------------------------------------------------
  // format_phone_number, branch by branch

  /** Branch 1: a digits-only string (the empty one included) gets "+1" in front. */
  lemma PhoneDigitsGetCountryCode(s: string)
    requires AllDigits(s)
    ensures FormatPhoneNumber(s) == "+1" + s
  {
  }

  /** A string that already carries a '+' is never changed. */
  lemma PhonePlusUnchanged(s: string)
    requires '+' in s
    ensures FormatPhoneNumber(s) == s
  {
    var i :| 0 <= i < |s| && s[i] == '+';
    assert !IsDigit(s[i]);
  }

  /**
   * The inner `"+1" + rest` branch cannot be taken: if everything after a
   * leading '1' were a digit, the whole string would be digits and branch 1
   * would already have fired.
   */
  lemma PhoneInnerBranchUnreachable(s: string)
    requires !AllDigits(s) && StartsWith(s, "1") && |s| > 1
    ensures !AllDigits(s[1..])
  {
    var i :| 0 <= i < |s| && !IsDigit(s[i]);
    assert s[0] == "1"[0];
    assert i != 0;
    assert s[1..][i - 1] == s[i];
  }

  /**
   * Branch 2 as it actually behaves: no '+', a leading '1', more than one
   * character and some non-digit after the '1' gives "+" + s.
   */
  lemma PhoneLeadingOneGetsPlus(s: string)
    requires '+' !in s && StartsWith(s, "1") && |s| > 1 && !AllDigits(s)
    ensures FormatPhoneNumber(s) == "+" + s
  {
    PhoneInnerBranchUnreachable(s);
  }

  /** Everything else is returned unchanged. */
  lemma PhoneOtherUnchanged(s: string)
    requires !AllDigits(s) && !('+' !in s && StartsWith(s, "1") && |s| > 1)
    ensures FormatPhoneNumber(s) == s
  {
  }

  /** The three possible outcomes, exhaustively. */
  lemma PhoneCases(s: string)
    ensures var r := FormatPhoneNumber(s);
      || (AllDigits(s) && r == "+1" + s)
      || (!AllDigits(s) && '+' !in s && StartsWith(s, "1") && r == "+" + s)
      || (!AllDigits(s) && r == s)
  {
    if !AllDigits(s) && '+' !in s && StartsWith(s, "1") && |s| > 1 {
      PhoneLeadingOneGetsPlus(s);
    }
  }

  /** Every result of the two rewriting branches contains a '+'. */
  lemma PhoneRewriteAddsPlus(s: string)
    requires FormatPhoneNumber(s) != s
    ensures '+' in FormatPhoneNumber(s)
  {
    PhoneCases(s);
    assert ("+1" + s)[0] == '+';
    assert ("+" + s)[0] == '+';
  }

  /** Normalising twice is normalising once. */
  lemma PhoneIdempotent(s: string)
    ensures FormatPhoneNumber(FormatPhoneNumber(s)) == FormatPhoneNumber(s)
  {
    var r := FormatPhoneNumber(s);
    if r != s {
      PhoneRewriteAddsPlus(s);
      PhonePlusUnchanged(r);
    }
  }

  // ---------------------------------------------------------------------
  // format_display_number, branch by branch

  /** A "+1" country code is dropped, provided something follows it. */
  lemma DisplayDropsCountryCode(s: string)
    requires StartsWith(s, "+1") && |s| > 2
    ensures FormatDisplayNumber(s) == s[2..]
  {
  }

  /** A leading '1' in front of digits only is dropped; "1" alone becomes "". */
  lemma DisplayDropsLeadingOne(s: string)
    requires StartsWith(s, "1") && AllDigits(s[1..])
    ensures FormatDisplayNumber(s) == s[1..]
  {
    assert s[0] != "+1"[0];
  }

  /** Anything else is shown as it is. */
  lemma DisplayOtherUnchanged(s: string)
    requires !(StartsWith(s, "+1") && |s| > 2) && !(StartsWith(s, "1") && AllDigits(s[1..]))
    ensures FormatDisplayNumber(s) == s
  {
  }

  /** The display form never grows and is always a suffix of its input. */
  lemma DisplayIsSuffix(s: string)
    ensures var r := FormatDisplayNumber(s); |r| <= |s| && r == s[|s| - |r|..]
  {
  }

  /**
   * Displaying a normalised non-empty digit string gives the digits back:
   * the "+1" added by normalisation is exactly what display strips.
   */
  lemma DisplayUndoesCountryCode(s: string)
    requires AllDigits(s) && |s| > 0
    ensures FormatDisplayNumber(FormatPhoneNumber(s)) == s
  {
    PhoneDigitsGetCountryCode(s);
    var r := "+1" + s;
    assert r[..2] == "+1";
    assert r[2..] == s;
  }

  /** The empty string is the exception: it normalises to "+1", which display keeps. */
  lemma DisplayKeepsBareCountryCode()
    ensures FormatPhoneNumber("") == "+1"
    ensures FormatDisplayNumber(FormatPhoneNumber("")) == "+1"
  {
    assert !AllDigits("+1") by { assert !IsDigit("+1"[0]); }
    assert !StartsWith("+1", "1") by { assert "+1"[..1] != "1"; }
  }

  // ---------------------------------------------------------------------
  // The unit tests, as stated facts

  /** The asserted cases of `test_format_phone_number`. */
  lemma PhoneNumberTestCases()
    ensures FormatPhoneNumber("5551234567") == "+15551234567"
    ensures FormatPhoneNumber("+15551234567") == "+15551234567"
    ensures FormatPhoneNumber("email@example.com") == "email@example.com"
  {
    var d := "5551234567";
    assert AllDigits(d) by {
      forall i | 0 <= i < |d| ensures IsDigit(d[i]) {
      }
    }
    PhoneDigitsGetCountryCode(d);
    PhonePlusUnchanged("+15551234567") by { assert "+15551234567"[0] == '+'; }
    var e := "email@example.com";
    assert !IsDigit(e[0]);
    assert !StartsWith(e, "1");
  }

  /**
   * The commented-out test case: with a leading '1' the digits-only branch
   * fires first, so the '1' is doubled instead of becoming the country code.
   */
  lemma PhoneLeadingOneDoubled()
    ensures FormatPhoneNumber("15551234567") == "+115551234567"
  {
    var d := "15551234567";
    assert AllDigits(d) by {
      forall i | 0 <= i < |d| ensures IsDigit(d[i]) {
      }
    }
    PhoneDigitsGetCountryCode(d);
  }

  /** The asserted cases of `test_format_display_number`. */
  lemma DisplayNumberTestCases()
    ensures FormatDisplayNumber("+15551234567") == "5551234567"
    ensures FormatDisplayNumber("15551234567") == "5551234567"
    ensures FormatDisplayNumber("5551234567") == "5551234567"
    ensures FormatDisplayNumber("email@example.com") == "email@example.com"
  {
    var p := "+15551234567";
    assert p[..2] == "+1";
    DisplayDropsCountryCode(p);
    var o := "15551234567";
    assert o[..1] == "1";
    assert AllDigits(o[1..]) by {
      forall i | 0 <= i < |o[1..]| ensures IsDigit(o[1..][i]) {
      }
    }
    DisplayDropsLeadingOne(o);
    var d := "5551234567";
    assert d[0] != '+' && d[0] != '1';
    var e := "email@example.com";
    assert e[0] != '+' && e[0] != '1';
  }
}

=== FILE: keys.dfy ===
/**
 * Terminal input as the views see it: one poll of the event source per
 * loop iteration (crossterm's `poll`/`read`, src/tui/common.rs).
 */
module Keys {

  /** The key codes the views distinguish; every other code is `OtherKey`. */
  datatype KeyCode = Esc | Char(c: char) | Backspace | Enter | Tab | Up | Down | OtherKey

  /** A key press; only the Control modifier matters to the views. */
  datatype KeyEvent = KeyEvent(code: KeyCode, control: bool)

  /**
   * The outcome of one poll: a key event; nothing (the timeout expired, or
   * a mouse or resize event, which every view ignores); or a terminal I/O
   * failure, carried as its display text.
   */
  datatype Poll = Key(event: KeyEvent) | Idle | Fault(detail: string)

  /** The `KeyCode::Char('c') if key.modifiers.contains(CONTROL)` arm. */
  predicate IsCtrlC(k: KeyEvent)
  {
    k.code == Char('c') && k.control
  }

  /** `String::pop` on an input buffer: drop the last character, if any. */
  function Pop(s: string): (r: string)
    ensures s == [] ==> r == []
    ensures s != [] ==> r + [s[|s| - 1]] == s
  {
    if s == [] then [] else s[..|s| - 1]
  }

  /** How a view's `run_ui` loop ended, or that it is still polling. */
  datatype LoopEnd<T> = Returned(value: T) | Failed(message: string) | Polling

  /** The keys that make the setup, contacts and chat views return: Esc and Ctrl+C. */
  predicate LeavesView(k: KeyEvent)
  {
    k.code == Esc || IsCtrlC(k)
  }

  /** The only key that makes the older chat `App` return: Esc. */
  predicate EscPressed(k: KeyEvent)
  {
    k.code == Esc
  }

  /** A poll that ends a loop which returns on the keys `quits` accepts: such a key, or a fault. */
  predicate Stops(p: Poll, quits: KeyEvent -> bool)
  {
    p.Fault? || (p.Key? && quits(p.event))
  }

  /**
   * How a view loop that returns on the keys `quits` accepts ends on
   * `polls`: at the first such key or the first fault, whichever comes
   * first, or still polling when neither occurs.
   */
  function FirstExit(polls: seq<Poll>, quits: KeyEvent -> bool): LoopEnd<()>
  {
    if polls == [] then Polling
    else match polls[0]
      case Fault(detail) => Failed(detail)
      case Key(k) => if quits(k) then Returned(()) else FirstExit(polls[1..], quits)
      case Idle => FirstExit(polls[1..], quits)
  }

  /** One step of `FirstExit` taken at position `i` of the polls. */
  lemma FirstExitStep(polls: seq<Poll>, quits: KeyEvent -> bool, i: nat)
    requires i < |polls|
    ensures FirstExit(polls[i..], quits) ==
      match polls[i]
      case Fault(detail) => Failed(detail)
      case Key(k) => if quits(k) then Returned(()) else FirstExit(polls[i + 1..], quits)
      case Idle => FirstExit(polls[i + 1..], quits)
  {
    assert polls[i..][0] == polls[i];
    assert polls[i..][1..] == polls[i + 1..];
  }

  /** `FirstExit` is still polling exactly when no poll stops the loop. */
  lemma {:induction false} FirstExitPolling(polls: seq<Poll>, quits: KeyEvent -> bool)
    ensures FirstExit(polls, quits).Polling? <==> forall j :: 0 <= j < |polls| ==> !Stops(polls[j], quits)
  {
    if polls != [] && !Stops(polls[0], quits) {
      FirstExitPolling(polls[1..], quits);
      assert forall j :: 1 <= j < |polls| ==> polls[j] == polls[1..][j - 1];
    }
  }

  /** When `FirstExit` has ended, the first poll that stops the loop decides how. */
  lemma {:induction false} FirstExitFirstStop(polls: seq<Poll>, quits: KeyEvent -> bool)
    ensures !FirstExit(polls, quits).Polling? ==>
      exists j :: 0 <= j < |polls| && Stops(polls[j], quits)
        && (forall i :: 0 <= i < j ==> !Stops(polls[i], quits))
        && FirstExit(polls, quits) == (if polls[j].Fault? then Failed(polls[j].detail) else Returned(()))
  {
    if polls == [] {
    } else if Stops(polls[0], quits) {
    } else if !FirstExit(polls[1..], quits).Polling? {
      FirstExitFirstStop(polls[1..], quits);
      var rest := polls[1..];
      var j :| 0 <= j < |rest| && Stops(rest[j], quits)
        && (forall i :: 0 <= i < j ==> !Stops(rest[i], quits))
        && FirstExit(rest, quits) == (if rest[j].Fault? then Failed(rest[j].detail) else Returned(()));
      assert polls[j + 1] == rest[j];
      forall i | 0 <= i < j + 1
        ensures !Stops(polls[i], quits)
      {
        if i > 0 {
          assert polls[i] == rest[i - 1];
        }
      }
    }
  }

  /**
   * `FirstExit` in terms of positions: still polling exactly when no poll
   * stops the loop; otherwise the first poll that stops it decides, a
   * fault giving its text and a key returning.
   */
  lemma FirstExitIsFirstStop(polls: seq<Poll>, quits: KeyEvent -> bool)
    ensures FirstExit(polls, quits).Polling? <==> forall j :: 0 <= j < |polls| ==> !Stops(polls[j], quits)
    ensures !FirstExit(polls, quits).Polling? ==>
      exists j :: 0 <= j < |polls| && Stops(polls[j], quits)
        && (forall i :: 0 <= i < j ==> !Stops(polls[i], quits))
        && FirstExit(polls, quits) == (if polls[j].Fault? then Failed(polls[j].detail) else Returned(()))
  {
    FirstExitPolling(polls, quits);
    FirstExitFirstStop(polls, quits);
  }

  /** The input line a chat loop holds and the lines it has handed to the sender, oldest first. */
  datatype Typed = Typed(input: string, sent: seq<string>)

  /**
   * What one key that does not quit does to a chat loop's input line: a
   * character is appended; Backspace pops; Enter on a non-empty line sends
   * that line and clears it; every other key leaves the line alone.
   */
  function Feed(code: KeyCode, input: string): Typed
  {
    match code
    case Char(c) => Typed(input + [c], [])
    case Backspace => Typed(Pop(input), [])
    case Enter => if input == [] then Typed(input, []) else Typed([], [input])
    case _ => Typed(input, [])
  }

  /**
   * What a chat loop that returns on the keys `quits` accepts does with
   * its input line over `polls`, starting from `input`: a quit key (checked
   * first) or a fault stops it; any other key is fed to the line; an idle
   * poll leaves it alone.
   */
  function Typing(polls: seq<Poll>, input: string, quits: KeyEvent -> bool): Typed
  {
    if polls == [] then Typed(input, [])
    else match polls[0]
      case Fault(_) => Typed(input, [])
      case Idle => Typing(polls[1..], input, quits)
      case Key(k) =>
        if quits(k) then Typed(input, [])
        else
          var fed := Feed(k.code, input);
          var rest := Typing(polls[1..], fed.input, quits);
          Typed(rest.input, fed.sent + rest.sent)
  }

  /** One step of `Typing` taken at position `i` of the polls. */
  lemma TypingStep(polls: seq<Poll>, input: string, quits: KeyEvent -> bool, i: nat)
    requires i < |polls|
    ensures Stops(polls[i], quits) ==> Typing(polls[i..], input, quits) == Typed(input, [])
    ensures polls[i].Idle? ==> Typing(polls[i..], input, quits) == Typing(polls[i + 1..], input, quits)
    ensures polls[i].Key? && !quits(polls[i].event) ==>
      var fed := Feed(polls[i].event.code, input);
      var rest := Typing(polls[i + 1..], fed.input, quits);
      Typing(polls[i..], input, quits) == Typed(rest.input, fed.sent + rest.sent)
  {
    assert polls[i..][0] == polls[i];
    assert polls[i..][1..] == polls[i + 1..];
  }

  /** A chat loop never sends an empty line, and sends nothing when its first poll stops it. */
  lemma {:induction false} TypingSendsNonEmpty(polls: seq<Poll>, input: string, quits: KeyEvent -> bool)
    ensures forall j :: 0 <= j < |Typing(polls, input, quits).sent| ==> Typing(polls, input, quits).sent[j] != []
    ensures polls != [] && Stops(polls[0], quits) ==> Typing(polls, input, quits) == Typed(input, [])
  {
    if polls != [] && !Stops(polls[0], quits) {
      if polls[0].Key? {
        var fed := Feed(polls[0].event.code, input);
        TypingSendsNonEmpty(polls[1..], fed.input, quits);
        assert forall j :: 0 <= j < |fed.sent| ==> fed.sent[j] != [];
      } else {
        TypingSendsNonEmpty(polls[1..], input, quits);
      }
    }
  }

  /**
   * A chat loop over `polls` that started from `input0`, has read the first
   * `i` polls without stopping, holds `input` and has sent `sent`: the rest
   * of the polls decide the end and the remaining lines.
   */
  ghost predicate Progress(polls: seq<Poll>, quits: KeyEvent -> bool, input0: string,
                           i: nat, input: string, sent: seq<string>)
    requires i <= |polls|
  {
    var rest := Typing(polls[i..], input, quits);
    FirstExit(polls, quits) == FirstExit(polls[i..], quits)
    && Typing(polls, input0, quits) == Typed(rest.input, sent + rest.sent)
  }

  /** A chat loop over `polls` from `input0` that has ended as `end`, holding `input`, having sent `sent`. */
  ghost predicate Finished(polls: seq<Poll>, quits: KeyEvent -> bool, input0: string,
                           end: LoopEnd<()>, input: string, sent: seq<string>)
  {
    FirstExit(polls, quits) == end && Typing(polls, input0, quits) == Typed(input, sent)
  }

  /** Nothing read yet: the whole of the polls is still to come. */
  lemma ProgressStart(polls: seq<Poll>, quits: KeyEvent -> bool, input0: string)
    ensures Progress(polls, quits, input0, 0, input0, [])
  {
    assert polls[0..] == polls;
  }

  /** Every poll read without stopping: the loop is still polling. */
  lemma ProgressEnd(polls: seq<Poll>, quits: KeyEvent -> bool, input0: string, input: string, sent: seq<string>)
    requires Progress(polls, quits, input0, |polls|, input, sent)
    ensures Finished(polls, quits, input0, Polling, input, sent)
  {
    assert polls[|polls|..] == [];
  }

  /**
   * Reading poll `i`: a fault fails, a quit key returns, any other key is
   * fed to the line and an idle poll changes nothing, as `FirstExit` and
   * `Typing` say.
   */
  lemma ProgressStep(polls: seq<Poll>, quits: KeyEvent -> bool, input0: string,
                     i: nat, input: string, sent: seq<string>,
                     end': LoopEnd<()>, input': string, sent': seq<string>)
    requires i < |polls| && Progress(polls, quits, input0, i, input, sent)
    requires end' == (if polls[i].Fault? then Failed(polls[i].detail)
                      else if Stops(polls[i], quits) then Returned(()) else Polling)
    requires polls[i].Key? && !Stops(polls[i], quits) ==>
      input' == Feed(polls[i].event.code, input).input && sent' == sent + Feed(polls[i].event.code, input).sent
    requires !(polls[i].Key? && !Stops(polls[i], quits)) ==> input' == input && sent' == sent
    ensures end'.Polling? ==> Progress(polls, quits, input0, i + 1, input', sent')
    ensures !end'.Polling? ==> Finished(polls, quits, input0, end', input', sent')
  {
    FirstExitStep(polls, quits, i);
    TypingStep(polls, input, quits, i);
  }
}

=== FILE: legacy_tui.dfy ===
/**
 * The older single-file chat client (src/tui.rs): the same transcript,
 * input and scroll state as the chat view, driven by `run_app`, whose key
 * handling has no Ctrl+C arm, and wrapped by `run_tui`, which manages the
 * terminal itself and swallows the loop's errors.
 */
module LegacyTui {
  import opened Wrappers
  import opened Errors
  import opened Keys
  import opened Chat

  /** The title line: `Chat with {display_name} (Press 'Esc' to quit)`. */
  function Title(displayName: string): (r: string)
    ensures |r| == |displayName| + 32
    ensures r[..10] == "Chat with " && r[10..10 + |displayName|] == displayName
    ensures r[10 + |displayName|..] == " (Press 'Esc' to quit)"
  {
    "Chat with " + displayName + " (Press 'Esc' to quit)"
  }

  class App {
    var messages: seq<Message>
    var input: string
    var scroll: nat
    const contact: string
    const displayName: string
    var shouldResetScroll: bool
    /** Every text handed to the sender, in order. */
    ghost var outbox: seq<string>

    ghost predicate Valid()
      reads this
    {
      |messages| <= PageSize && (!shouldResetScroll ==> scroll <= |messages|)
    }

    ghost predicate ScrollFits(height: nat)
      reads this
    {
      height >= Chrome && (!shouldResetScroll ==> scroll <= MaxScroll(|messages|, height))
    }

    /** `App::new`: empty transcript and input, scroll 0, a reset pending. */
    constructor (contact: string, displayName: string)
      ensures Valid()
      ensures this.contact == contact && this.displayName == displayName
      ensures messages == [] && input == [] && scroll == 0 && shouldResetScroll
      ensures outbox == []
    {
      this.contact := contact;
      this.displayName := displayName;
      messages := [];
      input := [];
      scroll := 0;
      shouldResetScroll := true;
      outbox := [];
    }

    /** `App::load_messages`: store the fetch oldest first and request a reset; a failed fetch changes nothing. */
    method LoadMessages(fetched: Result<seq<Message>, Error>) returns (r: Result<(), Error>)
      requires Valid()
      requires fetched.Ok? ==> |fetched.value| <= PageSize
      modifies this
      ensures Valid()
      ensures r.Ok? <==> fetched.Ok?
      ensures fetched.Err? ==> r.error == fetched.error && unchanged(this)
      ensures fetched.Ok? ==> messages == Reverse(fetched.value) && shouldResetScroll
      ensures fetched.Ok? ==> input == old(input) && scroll == old(scroll) && outbox == old(outbox)
    {
      match fetched {
        case Err(e) =>
          return Err(e);
        case Ok(fetchedMessages) =>
          var buffer := new Message[|fetchedMessages|](i requires 0 <= i < |fetchedMessages| => fetchedMessages[i]);
          assert buffer[..] == fetchedMessages;
          ReverseMessages(buffer);
          messages := buffer[..];
          shouldResetScroll := true;
          return Ok(());
      }
    }

    /** `App::send_message`: reload only after a successful delivery. */
    method SendMessage(text: string, delivery: Result<(), Error>, reload: Result<seq<Message>, Error>)
      returns (r: Result<(), Error>)
      requires Valid()
      requires reload.Ok? ==> |reload.value| <= PageSize
      modifies this
      ensures Valid()
      ensures outbox == old(outbox) + [text]
      ensures input == old(input) && scroll == old(scroll)
      ensures r.Ok? <==> delivery.Ok? && reload.Ok?
      ensures delivery.Err? ==> r.error == delivery.error
      ensures delivery.Ok? && reload.Err? ==> r.error == reload.error
      ensures delivery.Ok? && reload.Ok? ==> messages == Reverse(reload.value) && shouldResetScroll
      ensures !(delivery.Ok? && reload.Ok?) ==>
        messages == old(messages) && shouldResetScroll == old(shouldResetScroll)
    {
      outbox := outbox + [text];
      if delivery.Err? {
        return Err(delivery.error);
      }
      r := LoadMessages(reload);
    }

    /** The scroll reset at the top of each `run_app` iteration, as in the chat view. */
    method ResetScroll(height: nat)
      requires Valid() && height >= Chrome
      modifies this
      ensures Valid()
      ensures old(shouldResetScroll) && old(messages) != [] ==>
        scroll == MaxScroll(|messages|, height) && !shouldResetScroll
      ensures !(old(shouldResetScroll) && old(messages) != []) ==> scroll == old(scroll) && shouldResetScroll == old(shouldResetScroll)
      ensures messages == old(messages) && input == old(input) && outbox == old(outbox)
      ensures old(shouldResetScroll) || old(ScrollFits(height)) ==> ScrollFits(height)
    {
      if shouldResetScroll && messages != [] {
        scroll := MaxScroll(|messages|, height);
        shouldResetScroll := false;
      }
    }

    /**
     * One key event of `run_app`; true when the app quits. Only Esc quits:
     * with no Ctrl+C arm, Ctrl+C types a 'c' like any other character.
     */
    method HandleKey(k: KeyEvent, height: nat, delivery: Result<(), Error>, reload: Result<seq<Message>, Error>)
      returns (quit: bool)
      requires Valid() && height >= Chrome
      requires reload.Ok? ==> |reload.value| <= PageSize
      modifies this
      ensures Valid()
      ensures old(ScrollFits(height)) ==> ScrollFits(height)
      ensures quit <==> k.code == Esc
      ensures quit ==> unchanged(this)
      ensures IsCtrlC(k) ==> input == old(input) + ['c']
      ensures k.code.Char? ==>
        input == old(input) + [k.code.c] && messages == old(messages) && scroll == old(scroll)
        && shouldResetScroll == old(shouldResetScroll) && outbox == old(outbox)
      ensures k.code == Backspace ==>
        input == Pop(old(input)) && messages == old(messages) && scroll == old(scroll)
        && shouldResetScroll == old(shouldResetScroll) && outbox == old(outbox)
      ensures k.code == Enter && old(input) == [] ==> unchanged(this)
      ensures k.code == Enter && old(input) != [] ==>
        input == [] && outbox == old(outbox) + [old(input)] && scroll == old(scroll)
        && (delivery.Ok? && reload.Ok? ==> messages == Reverse(reload.value) && shouldResetScroll)
        && (!(delivery.Ok? && reload.Ok?) ==>
              messages == old(messages) && shouldResetScroll == old(shouldResetScroll))
      ensures k.code == Up ==>
        scroll == (if old(scroll) > 0 then old(scroll) - 1 else 0)
        && input == old(input) && messages == old(messages)
        && shouldResetScroll == old(shouldResetScroll) && outbox == old(outbox)
      ensures k.code == Down ==>
        scroll == (if old(scroll) < MaxScroll(|messages|, height) then old(scroll) + 1 else old(scroll))
        && input == old(input) && messages == old(messages)
        && shouldResetScroll == old(shouldResetScroll) && outbox == old(outbox)
      ensures k.code in {Tab, OtherKey} ==> unchanged(this)
    {
      quit := false;
      match k.code {
        case Esc =>
          quit := true;
        case Char(c) =>
          input := input + [c];
        case Backspace =>
          input := Pop(input);
        case Enter =>
          if input != [] {
            var line := input;
            var sent := SendMessage(line, delivery, reload);
            input := [];
          }
        case Up =>
          if scroll > 0 {
            scroll := scroll - 1;
          }
        case Down =>
          var maxScroll := MaxScroll(|messages|, height);
          if scroll < maxScroll {
            scroll := scroll + 1;
          }
        case _ =>
      }
    }

    /**
     * One iteration of the loop: reset the scroll if requested, then handle
     * the poll. The result is how the loop ends here, or `Polling` to go on;
     * a key that does not quit is fed to the input line.
     */
    method Tick(t: ChatTick) returns (end: LoopEnd<()>)
      requires Valid() && TickOk(t)
      modifies this
      ensures Valid()
      ensures old(shouldResetScroll) || old(ScrollFits(t.height)) ==> ScrollFits(t.height)
      ensures end == (if t.poll.Fault? then Failed(t.poll.detail)
                      else if Stops(t.poll, EscPressed) then Returned(()) else Polling)
      ensures t.poll.Key? && !Stops(t.poll, EscPressed) ==>
        input == Feed(t.poll.event.code, old(input)).input
        && outbox == old(outbox) + Feed(t.poll.event.code, old(input)).sent
      ensures !(t.poll.Key? && !Stops(t.poll, EscPressed)) ==> input == old(input) && outbox == old(outbox)
    {
      ResetScroll(t.height);
      end := Polling;
      match t.poll {
        case Fault(detail) =>
          end := Failed(detail);
        case Idle =>
        case Key(k) =>
          var quit := HandleKey(k, t.height, t.delivery, t.reload);
          if quit {
            end := Returned(());
          }
      }
    }

    /**
     * `run_app`: one iteration per tick until Esc or a terminal failure.
     * Unlike the chat view it does not load the transcript itself.
     */
    method RunApp(ticks: seq<ChatTick>) returns (end: LoopEnd<()>)
      requires Valid()
      requires forall j :: 0 <= j < |ticks| ==> TickOk(ticks[j])
      modifies this
      ensures Valid()
      ensures end.Failed? ==> exists j :: 0 <= j < |ticks| && ticks[j].poll == Fault(end.message)
      ensures end.Returned? ==> exists j :: 0 <= j < |ticks| && ticks[j].poll.Key? && ticks[j].poll.event.code == Esc
      ensures forall j :: |old(outbox)| <= j < |outbox| ==> outbox[j] != []
      ensures ticks != [] && ConstantHeight(ticks) && old(ScrollFits(ticks[0].height)) ==>
        ScrollFits(ticks[0].height)
      ensures end == FirstExit(PollsOf(ticks), EscPressed)
      ensures var typed := Typing(PollsOf(ticks), old(input), EscPressed);
        outbox == old(outbox) + typed.sent && input == typed.input
    {
      end := Polling;
      var i := 0;
      ghost var polls := PollsOf(ticks);
      ghost var sent: seq<string> := [];
      ProgressStart(polls, EscPressed, old(input));
      while i < |ticks| && end.Polling?
        invariant 0 <= i <= |ticks|
        invariant Valid()
        invariant ticks != [] && ConstantHeight(ticks) && old(ScrollFits(ticks[0].height)) ==>
          ScrollFits(ticks[0].height)
        invariant outbox == old(outbox) + sent
        invariant end.Polling? ==> Progress(polls, EscPressed, old(input), i, input, sent)
        invariant !end.Polling? ==> Finished(polls, EscPressed, old(input), end, input, sent)
      {
        ghost var line, sentBefore := input, sent;
        end := Tick(ticks[i]);
        if ticks[i].poll.Key? && !Stops(ticks[i].poll, EscPressed) {
          sent := sent + Feed(ticks[i].poll.event.code, line).sent;
        }
        ProgressStep(polls, EscPressed, old(input), i, line, sentBefore, end, input, sent);
        i := i + 1;
      }
      if end.Polling? {
        ProgressEnd(polls, EscPressed, old(input), input, sent);
      }
      LoopEndFacts(ticks, EscPressed, old(input), end, input, sent);
      forall j | |old(outbox)| <= j < |outbox|
        ensures outbox[j] != []
      {
        assert outbox[j] == sent[j - |old(outbox)|];
      }
    }

    /** The transcript lines `ui` draws into an area `areaHeight` rows high: never past the transcript's end. */
    function Rows(areaHeight: nat): (rows: seq<Row>)
      reads this
      ensures |rows| <= Min(|messages|, areaHeight)
      ensures forall i :: 0 <= i < |rows| ==> scroll + i < |messages| && rows[i] == RowOf(messages[scroll + i])
    {
      RenderedRows(messages, scroll, areaHeight)
    }
  }

  /**
   * `run_tui`: take the terminal, create the app and load its transcript.
   * A failed load restores the terminal and returns that error. Otherwise
   * the loop runs; once it ends the terminal is restored and the loop's
   * error, if any, is only printed: the result is `Ok`. `None` means the
   * loop is still polling when the ticks run out. Terminal setup and
   * restore failures surface as I/O errors.
   */
  method RunTui(contact: string, displayName: string, acquire: Option<string>,
                initial: Result<seq<Message>, Error>, ticks: seq<ChatTick>, restore: Option<string>)
    returns (r: Option<Result<(), Error>>)
    requires initial.Ok? ==> |initial.value| <= PageSize
    requires forall j :: 0 <= j < |ticks| ==> TickOk(ticks[j])
    ensures acquire.Some? ==> r == Some(Err(Io(acquire.value)))
    ensures acquire.None? && restore.Some? && r.Some? ==> r == Some(Err(Io(restore.value)))
    ensures acquire.None? && restore.None? && initial.Err? ==> r == Some(Err(initial.error))
    ensures acquire.None? && restore.None? && initial.Ok? && r.Some? ==> r == Some(Ok(()))
    ensures acquire.None? && initial.Ok? ==> (r.None? <==> FirstExit(PollsOf(ticks), EscPressed).Polling?)
  {
    if acquire.Some? {
      return Some(Err(Io(acquire.value)));
    }
    var app := new App(contact, displayName);
    var loaded := app.LoadMessages(initial);
    if loaded.Err? {
      if restore.Some? {
        return Some(Err(Io(restore.value)));
      }
      return Some(Err(loaded.error));
    }
    var end := app.RunApp(ticks);
    if end.Polling? {
      return None;
    }
    if restore.Some? {
      return Some(Err(Io(restore.value)));
    }
    // a failed loop is printed as "Error: ..." and not returned
    return Some(Ok(()));
  }
}

=== FILE: setup.dfy ===
/**
 * The first-run setup view (src/tui/setup.rs): two text buffers, a toggle
 * saying which one is being edited, and the configuration the view returns.
 * Drawing is abstract; only the text each input box shows is modelled.
 */
module Setup {
  import opened Wrappers
  import opened Formatter
  import opened Configuration
  import opened Keys

  datatype InputField = ContactField | DisplayNameField

  function Toggle(f: InputField): InputField
  {
    match f
    case ContactField => DisplayNameField
    case DisplayNameField => ContactField
  }

  /**
   * The block-element glyph drawn after the active buffer. The source text
   * of the glyph is damaged; its first two bytes place it among the
   * block elements, and U+258F is taken here. No property depends on it.
   */
  const CursorGlyph: char := '\U{258F}'

  /** What an input box shows: its buffer, plus the glyph when it is the active one. */
  function FieldText(input: string, active: bool): string
  {
    if active then input + [CursorGlyph] else input
  }

  class SetupView {
    var contactInput: string
    var displayNameInput: string
    var activeField: InputField
    var config: Config

    /** `SetupView::new`: both buffers empty, the contact field active, a default configuration. */
    constructor ()
      ensures contactInput == [] && displayNameInput == [] && activeField == ContactField
      ensures fresh(config)
      ensures config.defaultContact == None && config.defaultDisplayName == None
      ensures config.contacts == map[]
    {
      contactInput := [];
      displayNameInput := [];
      activeField := ContactField;
      config := new Config();
    }

    /** The text of the contact box (`render`). */
    function ContactText(): string
      reads this
    {
      FieldText(contactInput, activeField == ContactField)
    }

    /** The text of the display-name box (`render`). */
    function DisplayNameText(): string
      reads this
    {
      FieldText(displayNameInput, activeField == DisplayNameField)
    }

    /** `get_config`: a clone of the configuration. */
    method GetConfig() returns (c: Config)
      ensures fresh(c)
      ensures c.defaultContact == config.defaultContact && c.defaultDisplayName == config.defaultDisplayName
      ensures c.contacts == config.contacts
    {
      c := config.Clone();
    }

    /**
     * One key event of `run_ui`. `Some(c)` means the view returns `c`, a
     * clone of its configuration; `None` means the loop goes on.
     */
    method HandleKey(k: KeyEvent) returns (done: Option<Config>)
      modifies this, config
      ensures config == old(config)
      ensures done.Some? ==> (fresh(done.value)
        && done.value.defaultContact == config.defaultContact
        && done.value.defaultDisplayName == config.defaultDisplayName
        && done.value.contacts == config.contacts)
      // the configuration's named contacts are never touched
      ensures config.contacts == old(config.contacts)
      // Esc, and Ctrl+C ahead of the character arm: leave with the configuration as it is
      ensures k.code == Esc || IsCtrlC(k) ==>
        done.Some? && unchanged(this) && unchanged(config)
      ensures k.code == Tab ==>
        done.None? && activeField == Toggle(old(activeField)) && unchanged(config)
        && contactInput == old(contactInput) && displayNameInput == old(displayNameInput)
      ensures k.code.Char? && !IsCtrlC(k) ==>
        done.None? && activeField == old(activeField) && unchanged(config)
        && (if activeField == ContactField
            then contactInput == old(contactInput) + [k.code.c] && displayNameInput == old(displayNameInput)
            else displayNameInput == old(displayNameInput) + [k.code.c] && contactInput == old(contactInput))
      ensures k.code == Backspace ==>
        done.None? && activeField == old(activeField) && unchanged(config)
        && (if activeField == ContactField
            then contactInput == Pop(old(contactInput)) && displayNameInput == old(displayNameInput)
            else displayNameInput == Pop(old(displayNameInput)) && contactInput == old(contactInput))
      // Enter with an empty contact buffer is a no-op
      ensures k.code == Enter && old(contactInput) == [] ==>
        done.None? && unchanged(this) && unchanged(config)
      // Enter with a contact: store it normalised, and the display name if one was typed, then leave
      ensures k.code == Enter && old(contactInput) != [] ==>
        done.Some? && unchanged(this)
        && config.defaultContact == Some(FormatPhoneNumber(contactInput))
        && config.defaultDisplayName ==
             (if displayNameInput == [] then old(config.defaultDisplayName) else Some(displayNameInput))
      ensures k.code in {Up, Down, OtherKey} ==>
        done.None? && unchanged(this) && unchanged(config)
    {
      done := None;
      match k.code {
        case Esc =>
          var snapshot := GetConfig();
          done := Some(snapshot);
        case Char(c) =>
          if IsCtrlC(k) {
            var snapshot := GetConfig();
            done := Some(snapshot);
          } else if activeField == ContactField {
            contactInput := contactInput + [c];
          } else {
            displayNameInput := displayNameInput + [c];
          }
        case Tab =>
          activeField := Toggle(activeField);
        case Backspace =>
          if activeField == ContactField {
            contactInput := Pop(contactInput);
          } else {
            displayNameInput := Pop(displayNameInput);
          }
        case Enter =>
          if contactInput != [] {
            config.SetDefaultContact(FormatPhoneNumber(contactInput));
            if displayNameInput != [] {
              config.SetDefaultDisplayName(displayNameInput);
            }
            var snapshot := GetConfig();
            done := Some(snapshot);
          }
        case _ =>
      }
    }

    /**
     * The `run_ui` loop over a finite stream of polls: it stops at the first
     * key that makes the view return, or at the first terminal failure;
     * if the stream runs out first the view is still polling. The
     * configuration only changes on the committing Enter, which returns at once.
     */
    method RunUi(polls: seq<Poll>) returns (end: LoopEnd<Config>)
      modifies this, config
      ensures config == old(config)
      ensures config.contacts == old(config.contacts)
      ensures !end.Returned? ==>
        config.defaultContact == old(config.defaultContact)
        && config.defaultDisplayName == old(config.defaultDisplayName)
      ensures end.Returned? ==> (fresh(end.value)
        && end.value.contacts == old(config.contacts)
        && ((end.value.defaultContact == old(config.defaultContact)
             && end.value.defaultDisplayName == old(config.defaultDisplayName))
            || exists s :: s != [] && end.value.defaultContact == Some(FormatPhoneNumber(s))))
      ensures end.Failed? ==> exists i :: 0 <= i < |polls| && polls[i] == Fault(end.message)
      // a fault ends the loop only when no Esc, Ctrl+C or fault came first, and the same
      // holds for polling on to the end; a committing Enter can only end the loop earlier
      ensures end.Failed? ==> FirstExit(polls, LeavesView) == Failed(end.message)
      ensures end.Polling? ==> FirstExit(polls, LeavesView) == Polling
      ensures end.Returned? ==> exists j :: (0 <= j < |polls| && polls[j].Key?
        && (LeavesView(polls[j].event) || polls[j].event.code == Enter)
        && forall i :: 0 <= i < j ==> !Stops(polls[i], LeavesView))
    {
      end := Polling;
      var i := 0;
      while i < |polls| && end.Polling?
        invariant 0 <= i <= |polls|
        invariant config == old(config)
        invariant config.contacts == old(config.contacts)
        invariant !end.Returned? ==>
          config.defaultContact == old(config.defaultContact)
          && config.defaultDisplayName == old(config.defaultDisplayName)
        invariant end.Returned? ==> (fresh(end.value)
          && end.value.contacts == old(config.contacts)
          && ((end.value.defaultContact == old(config.defaultContact)
               && end.value.defaultDisplayName == old(config.defaultDisplayName))
              || exists s :: s != [] && end.value.defaultContact == Some(FormatPhoneNumber(s))))
        invariant end.Failed? ==> exists j :: 0 <= j < i && polls[j] == Fault(end.message)
        invariant end.Polling? ==> FirstExit(polls, LeavesView) == FirstExit(polls[i..], LeavesView)
        invariant end.Polling? ==> forall j :: 0 <= j < i ==> !Stops(polls[j], LeavesView)
        invariant end.Failed? ==> FirstExit(polls, LeavesView) == Failed(end.message)
        invariant end.Returned? ==> exists j :: (0 <= j < i && polls[j].Key?
          && (LeavesView(polls[j].event) || polls[j].event.code == Enter)
          && forall i' :: 0 <= i' < j ==> !Stops(polls[i'], LeavesView))
      {
        FirstExitStep(polls, LeavesView, i);
        match polls[i] {
          case Fault(detail) =>
            end := Failed(detail);
          case Idle =>
          case Key(k) =>
            var done := HandleKey(k);
            if done.Some? {
              end := Returned(done.value);
            }
        }
        i := i + 1;
      }
      assert end.Polling? ==> polls[i..] == [];
    }
  }

  /** The glyph is drawn in exactly one box, the active one, after its untouched buffer. */
  lemma CursorOnActiveFieldOnly(v: SetupView)
    ensures v.ContactText()[..|v.contactInput|] == v.contactInput
    ensures v.DisplayNameText()[..|v.displayNameInput|] == v.displayNameInput
    ensures v.activeField == ContactField ==>
      v.ContactText() == v.contactInput + [CursorGlyph] && v.DisplayNameText() == v.displayNameInput
    ensures v.activeField == DisplayNameField ==>
      v.DisplayNameText() == v.displayNameInput + [CursorGlyph] && v.ContactText() == v.contactInput
  {
  }

  /** Tab twice gives back the field that was active. */
  lemma ToggleTwice(f: InputField)
    ensures Toggle(Toggle(f)) == f && Toggle(f) != f
  {
  }

  /**
   * A first run driven from a fresh view: type `s` (plain characters) into
   * the contact box and press Enter. The returned configuration holds
   * `s` normalised as its default contact and no display name.
   */
  method TypeContactAndCommit(s: string) returns (done: Option<Config>)
    requires s != []
    ensures done.Some? && done.value.defaultContact == Some(FormatPhoneNumber(s))
    ensures done.value.defaultDisplayName == None && done.value.contacts == map[]
  {
    var view := new SetupView();
    for i := 0 to |s|
      invariant view.contactInput == s[..i] && view.displayNameInput == []
      invariant view.activeField == ContactField
      invariant view.config.defaultContact == None && view.config.defaultDisplayName == None
      invariant view.config.contacts == map[]
      invariant fresh(view) && fresh(view.config)
    {
      var ignored := view.HandleKey(KeyEvent(Char(s[i]), false));
      assert s[..i + 1] == s[..i] + [s[i]];
    }
    assert s[..|s|] == s;
    done := view.HandleKey(KeyEvent(Enter, false));
  }

  /** The setup example: typing 5551234567 stores +15551234567. */
  method TypeTestNumber() returns (done: Option<Config>)
    ensures done.Some? && done.value.defaultContact == Some("+15551234567")
  {
    done := TypeContactAndCommit("5551234567");
    PhoneNumberTestCases();
  }
}

=== FILE: wrappers.dfy ===
/** Option and Result, the two wrappers the client's Rust code returns everywhere. */
module Wrappers {

  datatype Option<+T> = None | Some(value: T)

  datatype Result<+R, +E> = Ok(value: R) | Err(error: E)

}
